=== FILE: README.md ===
# xmSport data processor, modelled in Dafny

This project models `dist/dataProcessor.js`, the part of xmSport that
rewrites a step-count upload. `processData(step, jsonTemplate)` checks the
step count. It then picks the template: the explicit argument, or the
`DATA_JSON` environment value. It hands the template to
`processExistingTemplate`, which works in four stages:

1. It computes the distance (`round(step * 0.73)` metres), the calories
   (`round(step * 0.04)` kcal) and today's `YYYY-MM-DD` date.
2. It tries a **structured rewrite**. The template is URI-decoded and
   wrapped in `[...]` unless it already starts with `[`, then parsed. The
   first element gets the new `date`. Its `summary` is resolved: a string is
   parsed, anything else is used as it is. `summary.stp` gets `ttl`, `dis`
   and `cal`. The summary is written back as a string, and the array is
   stringified and URI-encoded.
3. If any of that throws, it falls back to a **pattern rewrite** of the
   original, still-encoded text. This is four ordered regular-expression
   substitutions: date, step total, distance, calories.
4. At the end it checks whether `data_json` and `ttl` are present, which
   only affects logging.

Modules, one per part of the program:

- `Wrappers`: `Option` and `Result`.
- `Text`: what the code uses from `String`:
  - `indexOf`, `includes` and `replace` with a string pattern;
  - `trim` with the JavaScript whitespace set;
  - `padStart`, `String(n)`, and the greedy `\d+`.
- `Measurement`: the rounding, the distance and calorie values, and the date text.
- `Json`:
  - JSON values, where an object is an ordered sequence of fields;
  - property read (`Lookup`) and property assignment (`Put`);
  - what a tree built by `JSON.parse` looks like (`WellFormed`);
  - the four runtime codecs as injected, partial functions (`Codecs`), with
    the laws the proofs rely on (`Lawful`).
- `StructuredRewrite`: lines 54-76. Every strict-mode `TypeError` and every
  codec exception becomes a `Fault`.
- `PatternRewrite`: lines 78-139. The four regular expressions are given as
  searches for their literal parts. This is exact for these patterns,
  including the rule that `.` does not match line terminators.
- `DataProcessor`: `processData` and `processExistingTemplate`.

In these places the code does something a reader may not expect, and the
model follows it:

- `summary` is always written back as a string (line 69), even when it was
  an object, although the comment at line 68 speaks of keeping the original
  structure.
- When the decoded array is empty, or its first element is `null`, the `{}`
  from `arr[0] ?? {}` is never stored in the array. Its update is lost and
  the array is encoded unchanged (lines 58-71); no element is added.
- Only the `DATA_JSON` value is trimmed before use (line 20). An explicit
  template is passed on untrimmed (line 31).
- An array in the place of the item, the summary or `stp` takes the
  assignments as named properties, which `JSON.stringify` drops. It
  therefore comes out unchanged, except that an array summary is written
  back as its JSON text (line 69).

## Model

| member | source | states |
|---|---|---|
| DataProcessor.ProcessData | dist/dataProcessor.js:13-35 | An invalid step (not a number, NaN, or at most 0) fails first, whatever the template and environment. A truthy template is used as given; if it is not a string or is all whitespace, the result is the invalid-template error. Otherwise a non-empty `DATA_JSON` is used trimmed; if it is all whitespace, the result is the empty-environment error. Otherwise the result is the missing-template error. |
| DataProcessor.ExplicitTemplateIgnoresEnv | dist/dataProcessor.js:19-32 | With a truthy explicit template, two different `DATA_JSON` values give the same result. |
| DataProcessor.EnvConsultedOnlyWhenNeeded | dist/dataProcessor.js:19-25 | Unless the step is valid, the template is falsy and `DATA_JSON` is non-empty, the result equals the one with no `DATA_JSON` at all. |
| DataProcessor.RewrittenSourceNotBlank | dist/dataProcessor.js:15-32 | A successful result implies a valid step, and that the chosen source (explicit string or `DATA_JSON`) is not all whitespace. |
| DataProcessor.FallbackIgnoresFailedAttempt | dist/dataProcessor.js:54-86 | Two runs whose structured attempts fail, at whatever stage, give the same output: the fallback sees only the original template. |
| DataProcessor.UnrecognisedTemplateUnchanged | dist/dataProcessor.js:78-139 | A template that the structured path rejects and that has none of the four fields is returned unchanged. |
| DataProcessor.ProcessExistingTemplate | dist/dataProcessor.js:42-143 | With the measurement of the step count and today's date: if the structured attempt fails at any stage, the result is the pattern rewrite of the template as passed in; if decoding, parsing, stamping and encoding all go through, the result is the encoding of the stamped array. |
| DataProcessor.StructuredOutput | dist/dataProcessor.js:54-71 | On structured success, the output is the encoding of the stamped array. An object first element in it has the new date and a string summary. |
| Measurement.RoundHalfUp | dist/dataProcessor.js:45-46 | The result is the integer nearest the quotient, rounding half-way cases up, stated as two inequalities. |
| Measurement.Distance | dist/dataProcessor.js:45 | The distance in metres is within half a metre of steps × 0.73. |
| Measurement.Calories | dist/dataProcessor.js:46 | The calories in kcal are within half a kcal of steps × 0.04. |
| Measurement.DerivedBelowSteps | dist/dataProcessor.js:45-46 | Neither the distance nor the calories exceed the step count. |
| Measurement.FormatDate | dist/dataProcessor.js:48-52 | The date text contains only digits and dashes. For a valid date it is the year, a dash, two digits denoting month index + 1, a dash, and two digits denoting the day. |
| Measurement.DateLength | dist/dataProcessor.js:48-52 | For a four-digit year, the date text has exactly ten characters. |
| Measurement.Measure | dist/dataProcessor.js:45-52 | The measurement carries the step count unchanged, today's date text, and a distance and calories within half a unit of steps × 0.73 and steps × 0.04, neither above the step count. |
| Text.IndexFrom | dist/dataProcessor.js:90 | The result is the first position at or after `from` where the pattern occurs; no occurrence means `None`. |
| Text.ReplaceFirst | dist/dataProcessor.js:90 | Exactly the first occurrence is replaced; with no occurrence the text is unchanged. |
| Text.DecimalStringDenotes | dist/dataProcessor.js:106 | `String(n)` is a non-empty digit string without a leading zero, denoting `n`. |
| Text.DigitRunEnd | dist/dataProcessor.js:84-85 | The greedy `\d+` ends at the first non-digit or at the end of the text. |
| Text.PadStart | dist/dataProcessor.js:50-51 | The padded text has the requested length, ends with the original, and starts with fill characters. |
| Text.Trim | dist/dataProcessor.js:20 | The result is empty exactly when the input is all whitespace. Otherwise it is the slice without leading and trailing JavaScript whitespace. |
| Json.Lookup | dist/dataProcessor.js:62-64 | A property read is `None` exactly when no field has that key. |
| Json.LookupFirst | dist/dataProcessor.js:62-64 | A property read yields the value of the first field with that key. |
| Json.Put | dist/dataProcessor.js:60 | After assignment the key reads as the new value, and every other key reads as before. |
| Json.PutKeys | dist/dataProcessor.js:60 | Assigning an existing property keeps the key order; a new property is appended at the end. |
| Json.PutKeyOrder | dist/dataProcessor.js:60 | The key order after an assignment is the old order, with the key appended only if it was absent. |
| Json.PutUnchanged | dist/dataProcessor.js:60-67 | Assigning a property the value it already has leaves the object identical. |
| Json.PutWellFormed | dist/dataProcessor.js:65-67 | Assigning a well-formed value to a non-index key keeps the keys unique and in JavaScript property order. |
| Json.DoubleBoundaries | dist/dataProcessor.js:57 | A parsed number may be 2^53 or 2^54, but not 2^53 + 1 (not a double) or 2^1024 (overflow); every safe integer is a number. |
| Json.LookupWellFormed | dist/dataProcessor.js:62-64 | A property of a well-formed object is well-formed. |
| StructuredRewrite.StampStp | dist/dataProcessor.js:64-67 | A primitive `stp` throws and an array passes unchanged. An object gets the three values, with every other key unchanged. |
| StructuredRewrite.ResolveSummary | dist/dataProcessor.js:62-63 | A string summary is parsed, and an unparsable one throws. A missing or null summary becomes `{}`. Any other value is used as is. |
| StructuredRewrite.StampSummary | dist/dataProcessor.js:64-67 | A null or primitive summary throws, as does one whose `stp` is a primitive. On success the summary carries the stamped `stp`, and every other key of the summary and of `stp` is unchanged. |
| StructuredRewrite.StampItem | dist/dataProcessor.js:58-69 | A primitive item throws and an array passes unchanged. An object item fails exactly when its summary resolution or stamping throws. On success it has the new `date` and a string `summary`, with every other key unchanged. |
| StructuredRewrite.StampArray | dist/dataProcessor.js:58-69 | Only the first element is rewritten and later elements are unchanged. An empty array or a `null` first element comes back unchanged. |
| StructuredRewrite.DetachedItemUpdates | dist/dataProcessor.js:58 | Updating the detached `{}` never throws, so dropping its update hides no failure. |
| StructuredRewrite.Bracketed | dist/dataProcessor.js:57 | The text handed to `JSON.parse` always starts with `[`. It is the decoded text itself exactly when that starts with `[`, and otherwise the decoded text wrapped in `[` and `]`. |
| StructuredRewrite.ParseTemplate | dist/dataProcessor.js:55-57 | Decoding failure and parse failure of the bracketed text are reported as such. Success holds exactly when the bracketed text parses to an array, and yields that array's elements. Any other failure is the non-array one. |
| StructuredRewrite.Rewrite | dist/dataProcessor.js:54-76 | The attempt fails exactly when the template does not parse into an array, the first element's stamping throws, or encoding the stringified array throws; the first failure is the one reported. On success the output is the encoding of the stamped array. |
| StructuredRewrite.ParsedTemplateIsArray | dist/dataProcessor.js:55-57 | Under the codec laws, the parse never yields a non-array, and the array it yields is well-formed. |
| StructuredRewrite.SummaryStringCarriesStamp | dist/dataProcessor.js:69 | For a well-formed item, codecs meeting the laws, and step, distance and calorie values that are safe integers (at most 2^53 − 1): the summary string written back parses to the stamped summary, whose `stp` holds the step, distance and calorie values. |
| StructuredRewrite.StampStpWellFormed | dist/dataProcessor.js:65-67 | Stamping a well-formed `stp` with safe integers keeps it well-formed. |
| StructuredRewrite.StampSummaryWellFormed | dist/dataProcessor.js:64-67 | Stamping a well-formed summary with safe-integer step, distance and calorie values keeps it well-formed. |
| StructuredRewrite.ResolveSummaryWellFormed | dist/dataProcessor.js:62-63 | Under the codec laws, the resolved summary is well-formed. |
| StructuredRewrite.StampStpIdempotent | dist/dataProcessor.js:65-67 | Stamping a stamped `stp` again gives it back unchanged. |
| StructuredRewrite.StampSummaryIdempotent | dist/dataProcessor.js:64-67 | Stamping a stamped summary again gives it back unchanged. |
| StructuredRewrite.StampItemIdempotent | dist/dataProcessor.js:60-69 | Under the codec laws, for a well-formed item and safe-integer step, distance and calorie values, rewriting a rewritten item with the same measurement gives it back unchanged. |
| StructuredRewrite.StampArrayIdempotent | dist/dataProcessor.js:58-69 | Under the codec laws, for a well-formed array and safe-integer step, distance and calorie values, applying the tree mutation to its own output gives the same tree. |
| StructuredRewrite.StampStpKeyOrder | dist/dataProcessor.js:65-67 | The stamped `stp` object has its old keys in their old order, followed by whichever of `ttl`, `dis`, `cal` it lacked, in that order: the order `JSON.stringify` writes. |
| StructuredRewrite.StampSummaryKeyOrder | dist/dataProcessor.js:64-67 | `stp` keeps its place among the summary's keys, or is appended if new; inside an object `stp` the keys are ordered as for `StampStpKeyOrder`. |
| StructuredRewrite.StampItemKeyOrder | dist/dataProcessor.js:60-69 | A stamped object item has its old keys in their old order, followed by `date` and then `summary` if it lacked them. |
| PatternRewrite.LazyExec | dist/dataProcessor.js:82-83 | The match found is the leftmost position where the opening literal occurs and the next closing literal follows with no line terminator in between. |
| PatternRewrite.LazySubstitute | dist/dataProcessor.js:88-118 | An absent or empty capture means not found, with the text unchanged. Otherwise the first occurrence of the captured text anywhere, at or before the field, is replaced, and the replacement is kept. Updated holds exactly when re-running the expression captures the replacement. |
| PatternRewrite.KeyExec | dist/dataProcessor.js:84-85 | The match found is the first position where the key is followed by a digit. |
| PatternRewrite.KeySubstitute | dist/dataProcessor.js:120-127 | With no match the text is unchanged. Otherwise only the first match, the key plus its maximal digit run, is rewritten, by replacing the digit text's first occurrence inside it. This is never reported as a failed update. |
| PatternRewrite.Fallback | dist/dataProcessor.js:82-139 | The date is reported not found exactly when there is no non-empty date capture. Distance and calories are never a failed update. The marker flag describes the returned text. A template with none of the four fields comes back unchanged, with all four not found. Without a date capture, the step total is not found exactly when the template has no step capture; without either, the distance is updated exactly when the template has a distance match. |
| PatternRewrite.MissingDateSkipped | dist/dataProcessor.js:88-102 | Without a date field, the date value has no influence on the result. |
| PatternRewrite.CaloriesUpdatedDespiteDistance | dist/dataProcessor.js:120-134 | A calorie field is updated whether or not a distance field exists, when no date or step field is captured. |
| PatternRewrite.DistanceKeepsCalories | dist/dataProcessor.js:120-129 | The distance rewrite never removes the calorie match that the next step looks for. |
| PatternRewrite.KeysApart | dist/dataProcessor.js:84-85 | A calorie key with its first digit lies wholly before a distance match, or starts after the distance digit run: the two matches never overlap. |
| PatternRewrite.LazySubstituteVerifies | dist/dataProcessor.js:90-93 | If the captured text first occurs at the field itself, and the replacement holds no line terminator and no first character of the closing literal, the re-match captures the replacement. |
| PatternRewrite.RematchFirst | dist/dataProcessor.js:90-93 | After the capture is spliced out for a safe replacement, the expression again first matches the same field and captures exactly the replacement. |
| PatternRewrite.EarlierStillFails | dist/dataProcessor.js:82-83 | An opening literal before the matched field still fails to match after the splice: the line terminator that stopped it lies in the unchanged prefix. |
| PatternRewrite.DateVerifies | dist/dataProcessor.js:88-98 | The date update verifies whenever the old date text first occurs at the date field. |
| PatternRewrite.StepTotalVerifies | dist/dataProcessor.js:104-114 | The step update verifies whenever the old total first occurs at the `ttl` field. |
| PatternRewrite.DigitsFoundAfterKey | dist/dataProcessor.js:121 | Inside the distance or calorie match, the digit text is first found at the value exactly when it is not "2", "3", "5" or "22". |
| PatternRewrite.KeyDigitRuns | dist/dataProcessor.js:84-85 | The only digit runs inside the distance and calorie keys are "2", "3", "5" and "22". |
| PatternRewrite.KeyDigits | dist/dataProcessor.js:84-85 | Both keys have 18 characters, with digits exactly at positions 1, 4, 5, 10, 13, 14 and 16, reading 5, 2, 2, 5, 2, 2, 3. |
| PatternRewrite.DistanceRewriteHitsKey | dist/dataProcessor.js:121 | Rewriting `%5C%22dis%5C%22%3A5` with 3650 metres gives the key with its own `5` replaced by 3650, followed by the old value 5 (`%3650C%22dis%5C%22%3A5`): the key is damaged and the old value stays. |
| PatternRewrite.RewriteHitsSecond | dist/dataProcessor.js:120-127 | For any key whose second character is the first `5` in it, a value of `5` is not rewritten: the key's `5` is replaced instead. |

## Left out

- Console output (lines 72-75 and 94-137) is not modelled. The per-field
  outcomes of the pattern rewrite (`Updated`, `NotFound`, `VerifyFailed`)
  and the marker flag record which message would be printed.
- `new Date()` is not modelled. The local year, month index and day are a
  `LocalDate` parameter.
- `process.env.DATA_JSON` is an `Option<string>` parameter.
- `decodeURIComponent`, `encodeURIComponent`, `JSON.parse` and
  `JSON.stringify` are parameters (`Codecs`). Only the laws in `Lawful`
  are assumed of them. Neither JSON syntax nor percent-encoding is modelled.
- JSON numbers are integers; floating-point values, `-0`, `NaN` and
  `Infinity` inside templates are not represented. A number is any integer
  a double holds exactly (`IsDouble`), so the codec laws in `Lawful` hold
  of the real `JSON.parse` and `JSON.stringify` on every template whose
  numbers are integer literals; a template holding a fraction or an
  exponent that yields one is outside what the laws, and the lemmas that
  assume them, speak about.
- Distance: rounds the exact product step × 73 / 100, not the IEEE-754
  product `step * 0.73`. The two agree, half-way cases included, while the
  product stays below 2^46 (steps below about 9.6 × 10^13): the error of
  the stored 0.73 times the step count (under 0.002) plus the rounding of
  the product (at most 2^-7) stays below the 0.01 that separates an exact
  product from a half-way point, and a product just below x.5 rounds to
  x.5 itself. They part only at far larger counts, such as 553093017965313,
  where the IEEE product rounds to 403757903114679 and the exact one to
  403757903114678.
- Calories: rounds the exact product step × 4 / 100, not the IEEE-754
  product `step * 0.04`. By the same bound the two agree while the product
  stays below 2^46 (steps below about 1.7 × 10^15); step × 4 / 100 is never
  a half-way value.
- DataProcessor.ProcessData: only integral steps are modelled. Non-integral
  positive numbers, which the code accepts, and `Infinity` are out of scope.
  `String(step)` is the decimal form, and exponent notation for values
  from 10^21 on is not modelled.
- DataProcessor.ProcessData: a non-string template is reduced to its
  truthiness, which is all the code inspects before rejecting it.
- Error messages are tags (`Error`, `Fault`), not the source's strings.
- The wrapping `catch` at lines 140-143 (`TemplateProcessingError`) is not
  modelled. The fallback only searches and splices strings, so on string
  input it cannot throw.
- PatternRewrite.LazySubstitute and PatternRewrite.KeySubstitute: the
  `$`-patterns of `String.prototype.replace` are not modelled. The
  replacement texts (dates and decimal numbers) never contain `$`.
- Characters are Unicode scalar values (Dafny `char`), not the UTF-16 code
  units JavaScript strings hold, so a lone surrogate cannot be represented.
  A character outside the Basic Multilingual Plane is one position here and
  two in the source; none of the four patterns or replacements depends on
  positions, only on the characters matched.
- `EncodeFailed` is unreachable with current runtimes: line 71 encodes only
  `JSON.stringify` output, in which lone surrogates are escaped since
  ECMAScript 2019. It is kept because the codec parameter is partial.

=== FILE: json.dfy ===
/**
 * The JSON values the structured rewrite manipulates, as the JavaScript
 * runtime holds them after `JSON.parse`: objects are ordered sequences of
 * fields (own-property order), arrays are sequences, numbers are integers.
 * The runtime's JSON and URI functions are supplied as a `Codecs` value.
 */
module Json {
  import opened Wrappers
  import opened Text

  datatype Value =
    | Null
    | Bool(b: bool)
    | Num(n: int)
    | Str(s: string)
    | Arr(elems: seq<Value>)
    | Obj(fields: seq<Field>)

  datatype Field = Field(key: string, value: Value)

  /** Largest integer below which every integer is a distinct JavaScript number (`Number.MAX_SAFE_INTEGER`). */
  const MaxSafeInteger: int := 9007199254740991

  /** 2^53: every integer of at most this magnitude is a JavaScript number. */
  const ExactIntegerLimit: int := 0x20_0000_0000_0000

  /** 2^1024: every finite JavaScript number is below it in magnitude. */
  const DoubleLimit: int := 0x10000000000000000000000000000000000000000000000000000000000000000000000000000000000000000000000000000000000000000000000000000000000000000000000000000000000000000000000000000000000000000000000000000000000000000000000000000000000000000000000000000000000000000

  /**
   * The integers a JavaScript number (an IEEE-754 double) holds exactly:
   * those of magnitude at most 2^53, and below 2^1024 the even ones whose
   * half is one, i.e. a 53-bit significand times a power of two.
   */
  predicate IsDouble(n: int)
    decreases if n < 0 then -n else n
  {
    || -ExactIntegerLimit <= n <= ExactIntegerLimit
    || (n % 2 == 0 && -DoubleLimit < n < DoubleLimit && IsDouble(n / 2))
  }

  /**
   * 2^53 and 2^54 are numbers; 2^53 + 1 is not (it rounds to 2^53), nor is
   * 2^1024 (it overflows to `Infinity`).
   */
  lemma DoubleBoundaries()
    ensures IsDouble(ExactIntegerLimit) && IsDouble(ExactIntegerLimit * 2)
    ensures !IsDouble(ExactIntegerLimit + 1) && !IsDouble(DoubleLimit)
    ensures forall n :: -MaxSafeInteger <= n <= MaxSafeInteger ==> IsDouble(n)
  {
    assert IsDouble(ExactIntegerLimit * 2) by {
      assert ExactIntegerLimit * 2 / 2 == ExactIntegerLimit;
    }
  }

  /** The keys of an object, in property order. */
  function Keys(fs: seq<Field>): (ks: seq<string>)
    ensures |ks| == |fs|
    ensures forall i :: 0 <= i < |fs| ==> ks[i] == fs[i].key
  {
    if fs == [] then [] else [fs[0].key] + Keys(fs[1..])
  }

  /** `o[k]` on an object with fields `fs`: the value of the first field named `k`, if any. */
  function Lookup(fs: seq<Field>, k: string): (r: Option<Value>)
    ensures r.None? <==> k !in Keys(fs)
  {
    if fs == [] then None
    else if fs[0].key == k then Some(fs[0].value)
    else Lookup(fs[1..], k)
  }

  /** The value found is the one of the first field named `k`. */
  lemma {:induction false} LookupFirst(fs: seq<Field>, k: string, i: nat)
    requires i < |fs| && fs[i].key == k
    requires forall j :: 0 <= j < i ==> fs[j].key != k
    ensures Lookup(fs, k) == Some(fs[i].value)
  {
    if i > 0 {
      assert fs[0].key != k;
      LookupFirst(fs[1..], k, i - 1);
    }
  }

  /**
   * `o[k] = v` on an object with fields `fs`: an existing property keeps its
   * place and takes the new value, a new property is appended at the end.
   */
  function Put(fs: seq<Field>, k: string, v: Value): (r: seq<Field>)
    ensures Lookup(r, k) == Some(v)
    ensures forall k' :: k' != k ==> Lookup(r, k') == Lookup(fs, k')
  {
    if fs == [] then [Field(k, v)]
    else if fs[0].key == k then [Field(k, v)] + fs[1..]
    else
      var r := [fs[0]] + Put(fs[1..], k, v);
      assert r[1..] == Put(fs[1..], k, v);
      r
  }

  /** The key order after assigning `k`: unchanged if present, else `k` appended. */
  function WithKey(ks: seq<string>, k: string): seq<string>
  {
    if k in ks then ks else ks + [k]
  }

  /** An existing property keeps its place; a new one is appended at the end. */
  lemma {:induction false} PutKeys(fs: seq<Field>, k: string, v: Value)
    ensures k in Keys(fs) ==> Keys(Put(fs, k, v)) == Keys(fs)
    ensures k !in Keys(fs) ==> Keys(Put(fs, k, v)) == Keys(fs) + [k]
  {
    if fs != [] && fs[0].key == k {
      ConsKeys(Field(k, v), fs[1..]);
      ConsKeys(fs[0], fs[1..]);
    } else if fs != [] {
      PutKeys(fs[1..], k, v);
      ConsKeys(fs[0], fs[1..]);
      ConsKeys(fs[0], Put(fs[1..], k, v));
    }
  }

  /** `PutKeys` in one clause: the key order after the assignment is `WithKey`. */
  lemma PutKeyOrder(fs: seq<Field>, k: string, v: Value)
    ensures Keys(Put(fs, k, v)) == WithKey(Keys(fs), k)
  {
    PutKeys(fs, k, v);
  }

  lemma ConsKeys(f: Field, fs: seq<Field>)
    ensures Keys([f] + fs) == [f.key] + Keys(fs)
  {
    assert ([f] + fs)[1..] == fs;
  }

  /** Assigning a property the value it already has changes nothing. */
  lemma {:induction false} PutUnchanged(fs: seq<Field>, k: string, v: Value)
    requires Lookup(fs, k) == Some(v)
    ensures Put(fs, k, v) == fs
  {
    if fs[0].key == k {
      assert fs[0].value == v;
      assert [Field(k, v)] + fs[1..] == [fs[0]] + fs[1..] == fs;
    } else {
      assert Lookup(fs[1..], k) == Some(v);
      PutUnchanged(fs[1..], k, v);
      assert [fs[0]] + fs[1..] == fs;
    }
  }

  // ------------------------------------------------------ well-formedness

  /** A canonical array index: `String(n)` for some `n < 2^32 - 1`. */
  predicate IsIndexKey(k: string)
  {
    1 <= |k| && AllDigits(k) && (|k| == 1 || k[0] != '0') && DecimalValue(k) < 4294967295
  }

  predicate UniqueKeys(ks: seq<string>)
  {
    forall i, j :: 0 <= i < j < |ks| ==> ks[i] != ks[j]
  }

  /** Own-property order of an ordinary object: array indices first, ascending. */
  predicate PropertyOrder(ks: seq<string>)
  {
    forall i, j :: 0 <= i < j < |ks| && IsIndexKey(ks[j]) ==>
      IsIndexKey(ks[i]) && DecimalValue(ks[i]) < DecimalValue(ks[j])
  }

  /** A tree the runtime can hold after `JSON.parse`. */
  predicate WellFormed(v: Value)
  {
    match v
    case Num(n) => IsDouble(n)
    case Arr(es) => forall i :: 0 <= i < |es| ==> WellFormed(es[i])
    case Obj(fs) =>
      UniqueKeys(Keys(fs)) && PropertyOrder(Keys(fs))
      && forall i :: 0 <= i < |fs| ==> WellFormed(fs[i].value)
    case _ => true
  }

  predicate FieldsWellFormed(fs: seq<Field>)
  {
    forall i :: 0 <= i < |fs| ==> WellFormed(fs[i].value)
  }

  /** A property read from a well-formed object is well-formed. */
  lemma {:induction false} LookupWellFormed(fs: seq<Field>, k: string)
    requires FieldsWellFormed(fs)
    requires Lookup(fs, k).Some?
    ensures WellFormed(Lookup(fs, k).value)
  {
    if fs[0].key != k {
      assert FieldsWellFormed(fs[1..]) by {
        forall i | 0 <= i < |fs| - 1 ensures WellFormed(fs[1..][i].value) {
          assert fs[1..][i] == fs[i + 1];
        }
      }
      LookupWellFormed(fs[1..], k);
    }
  }

  lemma {:induction false} PutFieldsWellFormed(fs: seq<Field>, k: string, v: Value)
    requires FieldsWellFormed(fs) && WellFormed(v)
    ensures FieldsWellFormed(Put(fs, k, v))
  {
    if fs != [] && fs[0].key != k {
      assert FieldsWellFormed(fs[1..]) by {
        forall i | 0 <= i < |fs| - 1 ensures WellFormed(fs[1..][i].value) {
          assert fs[1..][i] == fs[i + 1];
        }
      }
      PutFieldsWellFormed(fs[1..], k, v);
      var r := Put(fs, k, v);
      assert r == [fs[0]] + Put(fs[1..], k, v);
      forall i | 0 <= i < |r| ensures WellFormed(r[i].value) {
        if i > 0 {
          assert r[i] == Put(fs[1..], k, v)[i - 1];
        }
      }
    }
  }

  /**
   * Assigning a well-formed value to a property that is not an array index
   * keeps an object well-formed: keys stay unique and in property order.
   */
  lemma PutWellFormed(fs: seq<Field>, k: string, v: Value)
    requires WellFormed(Obj(fs)) && WellFormed(v) && !IsIndexKey(k)
    ensures WellFormed(Obj(Put(fs, k, v)))
  {
    PutFieldsWellFormed(fs, k, v);
    PutKeys(fs, k, v);
    if k !in Keys(fs) {
      AppendKeyOrdered(Keys(fs), k);
    }
  }

  lemma AppendKeyOrdered(ks: seq<string>, k: string)
    requires UniqueKeys(ks) && PropertyOrder(ks) && k !in ks && !IsIndexKey(k)
    ensures UniqueKeys(ks + [k]) && PropertyOrder(ks + [k])
  {
    var ks' := ks + [k];
    forall i, j | 0 <= i < j < |ks'| ensures ks'[i] != ks'[j] {
      if j == |ks| {
        assert ks'[i] == ks[i];
      }
    }
  }

  // ------------------------------------------------------------- codecs

  /**
   * The runtime's `decodeURIComponent`, `encodeURIComponent`, `JSON.parse`
   * and `JSON.stringify`; `None` stands for a thrown exception.
   */
  datatype Codecs = Codecs(
    decodeUri: string -> Option<string>,
    encodeUri: string -> Option<string>,
    parse: string -> Option<Value>,
    stringify: Value -> string)

  /**
   * What the real functions guarantee on texts whose numbers are integers,
   * and what the proofs rely on: `JSON.parse` yields well-formed trees (an
   * integer literal becomes the nearest number), a text starting with `[`
   * parses to an array if it parses at all, and parsing a stringified
   * well-formed tree gives it back.
   */
  ghost predicate Lawful(c: Codecs)
  {
    && (forall t :: c.parse(t).Some? ==> WellFormed(c.parse(t).value))
    && (forall t :: 0 < |t| && t[0] == '[' && c.parse(t).Some? ==> c.parse(t).value.Arr?)
    && (forall v :: WellFormed(v) ==> c.parse(c.stringify(v)) == Some(v))
  }
}

=== FILE: measurement.dfy ===
/**
 * The values derived from a step count: distance in metres, calories in kcal
 * and the local calendar date stamped into the template.
 */
module Measurement {
  import opened Text

  /**
   * `Math.round(num / den)` for a non-negative exact quotient: the integer
   * nearest to `num / den`, with a half-way quotient rounded up.
   */
  function RoundHalfUp(num: nat, den: nat): (r: nat)
    requires den > 0
    ensures r * den * 2 <= num * 2 + den < r * den * 2 + den * 2
  {
    var q := (num * 2 + den) / (den * 2);
    assert q * (den * 2) <= num * 2 + den < q * (den * 2) + den * 2;
    q
  }

  /** `Math.round(step * 0.73)`, the distance in metres, on the exact product. */
  function Distance(steps: nat): (d: nat)
    ensures d * 100 - 50 <= steps * 73 < d * 100 + 50
  {
    RoundHalfUp(steps * 73, 100)
  }

  /** `Math.round(step * 0.04)`, the calories in kcal, on the exact product. */
  function Calories(steps: nat): (c: nat)
    ensures c * 100 - 50 <= steps * 4 < c * 100 + 50
  {
    RoundHalfUp(steps * 4, 100)
  }

  /** Neither derived value exceeds the step count it is derived from. */
  lemma DerivedBelowSteps(steps: nat)
    ensures Distance(steps) <= steps && Calories(steps) <= steps
  {
  }

  /** What the clock supplies: `getFullYear()`, `getMonth()` (0-based) and `getDate()`. */
  datatype LocalDate = LocalDate(year: int, monthIndex: nat, day: nat)

  predicate ValidDate(d: LocalDate)
  {
    d.monthIndex < 12 && 1 <= d.day <= 31
  }

  /**
   * `` `${year}-${month}-${day}` `` with month and day padded to two digits
   * with '0': the year, a dash, the month number as exactly two digits, a
   * dash and the day of the month as exactly two digits, nothing but digits
   * and dashes.
   */
  function FormatDate(d: LocalDate): (r: string)
    ensures DigitsAndDashes(r)
    ensures ValidDate(d) ==>
      var n := |IntString(d.year)|;
      |r| == n + 6 && r[..n] == IntString(d.year) && r[n] == '-' && r[n + 3] == '-'
      && AllDigits(r[n + 1..n + 3]) && DecimalValue(r[n + 1..n + 3]) == d.monthIndex + 1
      && AllDigits(r[n + 4..]) && DecimalValue(r[n + 4..]) == d.day
  {
    var y := IntString(d.year);
    var mm := PadStart(DecimalString(d.monthIndex + 1), 2, '0');
    var dd := PadStart(DecimalString(d.day), 2, '0');
    YearCharacters(d.year);
    DigitsPadded(d.monthIndex + 1);
    DigitsPadded(d.day);
    JoinDigitsAndDashes(y, "-");
    JoinDigitsAndDashes(y + "-", mm);
    JoinDigitsAndDashes(y + "-" + mm, "-");
    JoinDigitsAndDashes(y + "-" + mm + "-", dd);
    // Both branches are the same text; the test only guards the layout lemmas.
    if ValidDate(d) then
      PaddedTwoDigits(d.monthIndex + 1);
      PaddedTwoDigits(d.day);
      DashedPieces(y, mm, dd);
      y + "-" + mm + "-" + dd
    else
      y + "-" + mm + "-" + dd
  }

  /** A one- or two-digit number padded to width two is two digits of the same value. */
  lemma PaddedTwoDigits(n: nat)
    requires n < 100
    ensures var p := PadStart(DecimalString(n), 2, '0');
      |p| == 2 && AllDigits(p) && DecimalValue(p) == n
  {
    var s := DecimalString(n);
    var p := PadStart(s, 2, '0');
    DecimalStringDenotes(n);
    if n < 10 {
      assert s == [DigitChar(n)];
      assert p == ['0', DigitChar(n)];
      assert p[..1] == ['0'];
      assert DecimalValue(p[..1]) == 0 by {
        assert p[..1][..0] == [];
      }
    } else {
      assert s == DecimalString(n / 10) + [DigitChar(n % 10)];
      assert DecimalString(n / 10) == [DigitChar(n / 10)];
      assert p == s;
    }
  }

  /** A year from 1000 to 9999 is written with exactly four digits. */
  lemma FourDigitYear(y: int)
    requires 1000 <= y <= 9999
    ensures |IntString(y)| == 4
  {
    assert |DecimalString(y)| == |DecimalString(y / 10)| + 1;
    assert |DecimalString(y / 10)| == |DecimalString(y / 100)| + 1;
    assert |DecimalString(y / 100)| == |DecimalString(y / 1000)| + 1;
  }

  /** With a four-digit year the date text is the ten characters `YYYY-MM-DD`. */
  lemma DateLength(d: LocalDate)
    requires ValidDate(d) && 1000 <= d.year <= 9999
    ensures |FormatDate(d)| == 10
  {
    FourDigitYear(d.year);
  }

  predicate DigitsAndDashes(s: string)
  {
    forall k :: 0 <= k < |s| ==> IsDigit(s[k]) || s[k] == '-'
  }

  lemma NumberCharacters(n: nat)
    ensures DigitsAndDashes(DecimalString(n))
  {
    DecimalStringDenotes(n);
  }

  lemma YearCharacters(year: int)
    ensures DigitsAndDashes(IntString(year))
  {
    var magnitude: nat := if year < 0 then -year else year;
    DecimalStringDenotes(magnitude);
    if year < 0 {
      JoinDigitsAndDashes("-", DecimalString(magnitude));
    }
  }

  lemma DigitsPadded(n: nat)
    ensures DigitsAndDashes(PadStart(DecimalString(n), 2, '0'))
  {
    DecimalStringDenotes(n);
    PadDigits(DecimalString(n));
  }

  lemma PadDigits(s: string)
    requires AllDigits(s)
    ensures DigitsAndDashes(PadStart(s, 2, '0'))
  {
    var r := PadStart(s, 2, '0');
    var z := |r| - |s|;
    forall k | 0 <= k < |r| ensures IsDigit(r[k]) {
      if k >= z {
        assert r[k] == r[z..][k - z];
      }
    }
  }

  lemma JoinDigitsAndDashes(a: string, b: string)
    requires DigitsAndDashes(a) && DigitsAndDashes(b)
    ensures DigitsAndDashes(a + b)
  {
    assert forall k :: |a| <= k < |a + b| ==> (a + b)[k] == b[k - |a|];
  }

  lemma DashedPieces(y: string, mm: string, dd: string)
    requires |mm| == 2 && AllDigits(mm) && |dd| == 2 && AllDigits(dd)
    ensures var r := y + "-" + mm + "-" + dd;
      var n := |y|;
      |r| == n + 6 && r[..n] == y && r[n] == '-' && r[n + 3] == '-'
      && AllDigits(r[n + 1..n + 3]) && DecimalValue(r[n + 1..n + 3]) == DecimalValue(mm)
      && AllDigits(r[n + 4..]) && DecimalValue(r[n + 4..]) == DecimalValue(dd)
  {
    var r := y + "-" + mm + "-" + dd;
    var n := |y|;
    assert r[n + 1..n + 3] == mm;
    assert r[n + 4..] == dd;
  }

  /** What one run computes from the step count and the clock. */
  datatype StepMeasurement = StepMeasurement(steps: nat, distance: nat, calories: nat, date: string)

  /**
   * The step count as given, the distance and calories rounded from it, and
   * today's date text.
   */
  function Measure(steps: nat, today: LocalDate): (m: StepMeasurement)
    ensures m.steps == steps && m.date == FormatDate(today)
    ensures m.distance * 100 - 50 <= steps * 73 < m.distance * 100 + 50
    ensures m.calories * 100 - 50 <= steps * 4 < m.calories * 100 + 50
    ensures m.distance <= steps && m.calories <= steps
  {
    StepMeasurement(steps, Distance(steps), Calories(steps), FormatDate(today))
  }
}

=== FILE: pattern.dfy ===
/**
 * The pattern rewrite fallback of `processExistingTemplate`: four ordered
 * substitutions on the still percent-encoded template text, each driven by
 * one of four fixed regular expressions, which are specified here as
 * searches for their literal parts.
 */
module PatternRewrite {
  import opened Wrappers
  import opened Text
  import opened Measurement

  /** Literal parts of `/.*?date%22%3A%22(.*?)%22%2C%22data.*?/`. */
  const DateOpen: string := "date%22%3A%22"
  const DateClose: string := "%22%2C%22data"

  /** Literal parts of `/.*?ttl%5C%22%3A(.*?)%2C%5C%22dis.*?/`. */
  const TtlOpen: string := "ttl%5C%22%3A"
  const TtlClose: string := "%2C%5C%22dis"

  /** Literal prefixes of `/%5C%22dis%5C%22%3A(\d+)/` and `/%5C%22cal%5C%22%3A(\d+)/`. */
  const DisKey: string := "%5C%22dis%5C%22%3A"
  const CalKey: string := "%5C%22cal%5C%22%3A"

  /** The characters a regular-expression `.` does not match. */
  predicate IsLineTerminator(c: char)
  {
    c == '\n' || c == '\r' || c == '\U{2028}' || c == '\U{2029}'
  }

  predicate NoLineTerminator(s: string)
  {
    forall i :: 0 <= i < |s| ==> !IsLineTerminator(s[i])
  }

  // ------------------------------------------- /.*?open(.*?)close.*?/

  /**
   * `/.*?open(.*?)close.*?/` matches with `open` found at `p`: the lazy group
   * runs up to the next `close` and may not cross a line terminator.
   */
  predicate LazyMatchesAt(s: string, open: string, close: string, p: nat)
  {
    && OccursAt(s, open, p)
    && var q := IndexFrom(s, close, p + |open|);
       q.Some? && NoLineTerminator(s[p + |open|..q.value])
  }

  /** Where `exec` finds `open`: the leftmost position from which the expression matches. */
  function LazyExec(s: string, open: string, close: string): (r: Option<nat>)
    ensures r.Some? ==> LazyMatchesAt(s, open, close, r.value)
    ensures forall p: nat :: (r.None? || p < r.value) ==> !LazyMatchesAt(s, open, close, p)
  {
    var matches := (p: nat) => LazyMatchesAt(s, open, close, p);
    var r := FirstWhere(matches, 0, |s| + 1);
    assert forall p: nat :: matches(p) == LazyMatchesAt(s, open, close, p);
    r
  }

  /** The text of group 1 when `open` is found at `p`. */
  function GroupAt(s: string, open: string, close: string, p: nat): string
    requires LazyMatchesAt(s, open, close, p)
  {
    s[p + |open|..IndexFrom(s, close, p + |open|).value]
  }

  /** The capture is found again at the place it was captured from. */
  lemma GroupOccurs(s: string, open: string, close: string, p: nat)
    requires LazyMatchesAt(s, open, close, p)
    ensures OccursAt(s, GroupAt(s, open, close, p), p + |open|)
  {
  }

  /** `re.exec(s)[1]`, with `None` for a `null` result. */
  function LazyGroup(s: string, open: string, close: string): Option<string>
  {
    match LazyExec(s, open, close)
    case None => None
    case Some(p) => Some(GroupAt(s, open, close, p))
  }

  /** `re.exec(s)` succeeds with a non-empty group 1 (the source's `match && match[1]`). */
  predicate Captures(s: string, open: string, close: string)
  {
    var g := LazyGroup(s, open, close);
    g.Some? && g.value != ""
  }

  datatype FieldOutcome = Updated | NotFound | VerifyFailed

  /** The text after one substitution and what was reported about it. */
  datatype Substitution = Substitution(text: string, outcome: FieldOutcome)

  /**
   * Lines 88-118: when group 1 is non-empty, the first occurrence of its text
   * anywhere in `s` (not necessarily the matched field) is replaced by `rep`;
   * the result is kept whether or not re-running the expression then yields
   * `rep`, which only decides the outcome reported.
   */
  function LazySubstitute(s: string, open: string, close: string, rep: string): (r: Substitution)
    ensures r.outcome == NotFound <==> !Captures(s, open, close)
    ensures r.outcome == NotFound ==> r.text == s
    ensures r.outcome != NotFound ==>
      var p := LazyExec(s, open, close).value;
      var g := LazyGroup(s, open, close).value;
      var j := IndexFrom(s, g, 0);
      && j.Some? && j.value <= p + |open|
      && r.text == s[..j.value] + rep + s[j.value + |g|..]
    ensures r.outcome == Updated <==> r.outcome != NotFound && LazyGroup(r.text, open, close) == Some(rep)
  {
    match LazyGroup(s, open, close)
    case None => Substitution(s, NotFound)
    case Some(g) =>
      if g == "" then Substitution(s, NotFound)
      else
        var p := LazyExec(s, open, close).value;
        GroupOccurs(s, open, close, p);
        var t := ReplaceFirst(s, g, rep);
        ReplaceFound(s, g, rep);
        Substitution(t, if LazyGroup(t, open, close) == Some(rep) then Updated else VerifyFailed)
  }

  // --------------------------------------------------- /key(\d+)/

  /** `/key(\d+)/` matches at `p`: `key` followed by at least one digit. */
  predicate KeyDigitsAt(s: string, key: string, p: nat)
  {
    OccursAt(s, key, p) && p + |key| < |s| && IsDigit(s[p + |key|])
  }

  /** Where `/key(\d+)/` first matches, if anywhere. */
  function KeyExec(s: string, key: string): (r: Option<nat>)
    ensures r.Some? ==> KeyDigitsAt(s, key, r.value)
    ensures forall p: nat :: (r.None? || p < r.value) ==> !KeyDigitsAt(s, key, p)
  {
    var matches := (p: nat) => KeyDigitsAt(s, key, p);
    var r := FirstWhere(matches, 0, |s| + 1);
    assert forall p: nat :: matches(p) == KeyDigitsAt(s, key, p);
    r
  }

  /**
   * Lines 120-134: `s.replace(re, (m, g1) => m.replace(g1, rep))`. Only the
   * first match (the key and its maximal digit run) is rewritten, and within
   * it the first occurrence of the digit text, which may lie inside the key.
   */
  function KeySubstitute(s: string, key: string, rep: string): (r: Substitution)
    ensures r.outcome == NotFound <==> KeyExec(s, key).None?
    ensures r.outcome != VerifyFailed
    ensures r.outcome == NotFound ==> r.text == s
    ensures r.outcome == Updated ==>
      var p := KeyExec(s, key).value;
      var e := DigitRunEnd(s, p + |key|);
      var g := s[p + |key|..e];
      && 0 < |g| && AllDigits(g) && (e == |s| || !IsDigit(s[e]))
      && r.text == s[..p] + ReplaceFirst(key + g, g, rep) + s[e..]
  {
    match KeyExec(s, key)
    case None => Substitution(s, NotFound)
    case Some(p) =>
      var e := DigitRunEnd(s, p + |key|);
      MatchSlice(s, key, p, e);
      Substitution(s[..p] + ReplaceFirst(s[p..e], s[p + |key|..e], rep) + s[e..], Updated)
  }

  /** A match that starts with `key` at `p` and ends at `e` is `key` and then the rest. */
  lemma MatchSlice(s: string, key: string, p: nat, e: nat)
    requires OccursAt(s, key, p) && p + |key| <= e <= |s|
    ensures s[p..e] == key + s[p + |key|..e]
  {
    assert s[p..e] == s[p..p + |key|] + s[p + |key|..e];
  }

  // ------------------------------------------------------------ fallback

  /** The rewritten text and what lines 88-137 report about each field. */
  datatype Report = Report(
    text: string,
    date: FieldOutcome,
    steps: FieldOutcome,
    distance: FieldOutcome,
    calories: FieldOutcome,
    markersPresent: bool)

  /**
   * Lines 82-139: date, then step total, then distance, then calories, each
   * applied to the text the previous one produced, starting from the
   * original template; the closing marker check only sets a flag.
   */
  function Fallback(template: string, m: StepMeasurement): (r: Report)
    ensures r.date == NotFound <==> !Captures(template, DateOpen, DateClose)
    ensures r.distance != VerifyFailed && r.calories != VerifyFailed
    ensures r.markersPresent <==> Contains(r.text, "data_json") && Contains(r.text, "ttl")
    ensures
      && !Captures(template, DateOpen, DateClose) && !Captures(template, TtlOpen, TtlClose)
      && KeyExec(template, DisKey).None? && KeyExec(template, CalKey).None?
      ==> r == Report(template, NotFound, NotFound, NotFound, NotFound, r.markersPresent)
    ensures !Captures(template, DateOpen, DateClose) ==>
      (r.steps == NotFound <==> !Captures(template, TtlOpen, TtlClose))
    ensures !Captures(template, DateOpen, DateClose) && !Captures(template, TtlOpen, TtlClose) ==>
      (r.distance == Updated <==> KeyExec(template, DisKey).Some?)
  {
    var date := LazySubstitute(template, DateOpen, DateClose, m.date);
    var steps := LazySubstitute(date.text, TtlOpen, TtlClose, DecimalString(m.steps));
    var distance := KeySubstitute(steps.text, DisKey, DecimalString(m.distance));
    var calories := KeySubstitute(distance.text, CalKey, DecimalString(m.calories));
    var out := calories.text;
    Report(out, date.outcome, steps.outcome, distance.outcome, calories.outcome,
           Contains(out, "data_json") && Contains(out, "ttl"))
  }
  /** Without a date field the date value has no influence on anything the fallback does. */
  lemma MissingDateSkipped(template: string, m: StepMeasurement, date: string)
    requires !Captures(template, DateOpen, DateClose)
    ensures Fallback(template, m.(date := date)) == Fallback(template, m)
  {
  }

  /**
   * A missing distance field never blocks the calories: with no date or step
   * field captured, a calorie match in the template is always rewritten.
   */
  lemma CaloriesUpdatedDespiteDistance(template: string, m: StepMeasurement)
    requires !Captures(template, DateOpen, DateClose) && !Captures(template, TtlOpen, TtlClose)
    requires KeyExec(template, CalKey).Some?
    ensures Fallback(template, m).calories == Updated
  {
    DistanceKeepsCalories(template, DecimalString(m.distance));
  }

  // ------------------------------------------------------- dis/cal position

  /**
   * Within the match `key + g` of the distance or calorie expression, the
   * first occurrence of the digit text `g` is the value itself exactly when
   * `g` is not one of the digit runs "2", "3", "5", "22" that the key's
   * own escapes contain; for those the replacement lands inside the key.
   */
  lemma DigitsFoundAfterKey(key: string, g: string)
    requires key == DisKey || key == CalKey
    requires 0 < |g| && AllDigits(g)
    ensures IndexFrom(key + g, g, 0) == Some(|key|) <==> g !in {"2", "3", "5", "22"}
  {
    var w := key + g;
    assert OccursAt(w, g, |key|) by {
      assert w[|key|..|key| + |g|] == g;
    }
    if g in {"2", "3", "5", "22"} {
      var i := OccurrenceInKey(key, g);
    } else {
      NoOccurrenceInKey(key, g);
    }
  }

  /** A digit run of the key occurs in `key + g` before the value. */
  lemma OccurrenceInKey(key: string, g: string) returns (i: nat)
    requires key == DisKey || key == CalKey
    requires g in {"2", "3", "5", "22"}
    ensures i < |key| && OccursAt(key + g, g, i)
  {
    var w := key + g;
    i := if g == "5" then 1 else if g == "3" then 16 else 4;
    assert w[i] == key[i] && w[i + 1] == key[i + 1];
    if |g| == 1 {
      assert w[i..i + 1] == [key[i]] == g;
    } else {
      assert w[i..i + 2] == [key[i], key[i + 1]] == g;
    }
  }

  /** Any other digit text occurs in `key + g` only at the value. */
  lemma NoOccurrenceInKey(key: string, g: string)
    requires key == DisKey || key == CalKey
    requires 0 < |g| && AllDigits(g) && g !in {"2", "3", "5", "22"}
    ensures forall i: nat :: i < |key| ==> !OccursAt(key + g, g, i)
  {
    var w := key + g;
    assert |key| == 18;
    assert w[..|key|] == key;
    forall i: nat | i < |key| ensures !OccursAt(w, g, i) {
      if i + |g| > |key| {
        assert w[|key| - 1] == key[|key| - 1] == 'A';
        assert w[i..i + |g|][|key| - 1 - i] == w[|key| - 1];
      } else {
        assert w[i..i + |g|] == key[i..i + |g|];
        if AllDigits(key[i..i + |g|]) {
          KeyDigitRuns(key, i, |g|);
        }
      }
    }
  }

  /** The key's digits are "5" at 1 and 10, "22" at 4 and 13, "3" at 16; nothing else. */
  lemma KeyDigitRuns(key: string, i: nat, n: nat)
    requires key == DisKey || key == CalKey
    requires 0 < n && i + n <= |key| && AllDigits(key[i..i + n])
    ensures key[i..i + n] in {"2", "3", "5", "22"}
  {
    KeyDigits(key);
    var t := key[i..i + n];
    assert forall j :: 0 <= j < n ==> t[j] == key[i + j];
    assert IsDigit(t[0]);
    var second := if n >= 2 then 1 else 0;
    assert IsDigit(t[second]);
    var third := if n >= 3 then 2 else 0;
    assert IsDigit(t[third]);
    if n == 1 {
      assert t == [key[i]];
    } else if n == 2 {
      assert t == [key[i], key[i + 1]];
    } else {
      assert false;
    }
  }

  /** Where the digits of either key are, and what they are. */
  lemma KeyDigits(key: string)
    requires key == DisKey || key == CalKey
    ensures |key| == 18
    ensures forall j :: 0 <= j < 18 ==> (IsDigit(key[j]) <==> j in {1, 4, 5, 10, 13, 14, 16})
    ensures key[1] == '5' && key[4] == '2' && key[5] == '2'
    ensures key[10] == '5' && key[13] == '2' && key[14] == '2' && key[16] == '3'
  {
    if key == DisKey {
      assert DisKey == "%5C%22dis%5C%22%3A";
    } else {
      assert CalKey == "%5C%22cal%5C%22%3A";
    }
  }

  // ---------------------------------------------------- re-match verification

  /** Occurrences that end within a shared prefix are the same in both texts. */
  lemma SharedPrefixOccurs(s: string, t: string, n: nat, pat: string)
    requires n <= |s| && n <= |t| && s[..n] == t[..n]
    ensures forall i: nat :: i + |pat| <= n ==> (OccursAt(s, pat, i) <==> OccursAt(t, pat, i))
  {
    forall i: nat | i + |pat| <= n ensures OccursAt(s, pat, i) <==> OccursAt(t, pat, i) {
      assert s[i..i + |pat|] == s[..n][i..i + |pat|];
      assert t[i..i + |pat|] == t[..n][i..i + |pat|];
    }
  }

  /** Every character of a terminator-free slice is no terminator. */
  lemma TerminatorFree(x: string, a: nat, b: nat)
    requires a <= b <= |x| && NoLineTerminator(x[a..b])
    ensures forall y :: a <= y < b ==> !IsLineTerminator(x[y])
  {
    forall y | a <= y < b ensures !IsLineTerminator(x[y]) {
      assert x[a..b][y - a] == x[y];
    }
  }

  /** `close` holds no line terminator, and `rep` holds none and cannot start `close`. */
  predicate SafeReplacement(close: string, rep: string)
  {
    && 0 < |close| && NoLineTerminator(close) && NoLineTerminator(rep)
    && forall k :: 0 <= k < |rep| ==> rep[k] != close[0]
  }

  /** The expression matches, and its non-empty capture first occurs in `s` at the field itself. */
  predicate CapturedAtField(s: string, open: string, close: string)
  {
    && LazyExec(s, open, close).Some?
    && var p := LazyExec(s, open, close).value;
       var g := GroupAt(s, open, close, p);
       g != "" && IndexFrom(s, g, 0) == Some(p + |open|)
  }

  /**
   * The date and step substitutions verify whenever the captured text first
   * occurs at the matched field itself and the replacement can neither start
   * the closing literal nor hold a line terminator: re-running the expression
   * then captures exactly the replacement.
   */
  lemma LazySubstituteVerifies(s: string, open: string, close: string, rep: string)
    requires SafeReplacement(close, rep) && CapturedAtField(s, open, close)
    ensures LazySubstitute(s, open, close, rep).outcome == Updated
  {
    var p, q := FieldAt(s, open, close);
    CaptureAt(s, open, close, p, q);
    var t := s[..p + |open|] + rep + s[q..];
    RematchFirst(s, t, open, close, p, q, rep);
    SubstitutedText(s, open, close, rep, p, q);
    UpdatedOnceRecaptured(s, open, close, rep);
  }

  /** Where the matched field starts and where its capture ends. */
  lemma FieldAt(s: string, open: string, close: string) returns (p: nat, q: nat)
    requires LazyExec(s, open, close).Some?
    ensures LazyExec(s, open, close) == Some(p) && IndexFrom(s, close, p + |open|) == Some(q)
    ensures p + |open| <= q <= |s|
  {
    p := LazyExec(s, open, close).value;
    q := IndexFrom(s, close, p + |open|).value;
  }

  /** The capture at the field, spelled as a slice. */
  lemma CaptureAt(s: string, open: string, close: string, p: nat, q: nat)
    requires CapturedAtField(s, open, close)
    requires LazyExec(s, open, close) == Some(p) && IndexFrom(s, close, p + |open|) == Some(q)
    requires p + |open| <= q <= |s|
    ensures p + |open| < q && IndexFrom(s, s[p + |open|..q], 0) == Some(p + |open|)
  {
  }

  /** A substitution that found its field reports `Updated` once its text captures `rep`. */
  lemma UpdatedOnceRecaptured(s: string, open: string, close: string, rep: string)
    requires LazySubstitute(s, open, close, rep).outcome != NotFound
    requires LazyGroup(LazySubstitute(s, open, close, rep).text, open, close) == Some(rep)
    ensures LazySubstitute(s, open, close, rep).outcome == Updated
  {
  }

  /** With the capture first found at the field, the substitution splices `rep` in for it. */
  lemma SubstitutedText(s: string, open: string, close: string, rep: string, p: nat, q: nat)
    requires LazyExec(s, open, close) == Some(p) && IndexFrom(s, close, p + |open|) == Some(q)
    requires p + |open| < q && IndexFrom(s, s[p + |open|..q], 0) == Some(p + |open|)
    ensures var r := LazySubstitute(s, open, close, rep);
      r.outcome != NotFound && r.text == s[..p + |open|] + rep + s[q..]
  {
    var j := p + |open|;
    assert LazyGroup(s, open, close) == Some(s[j..q]);
  }

  /** The whole re-match: the expression now first matches at `p`, capturing `rep`. */
  lemma RematchFirst(s: string, t: string, open: string, close: string, p: nat, q: nat, rep: string)
    requires SafeReplacement(close, rep)
    requires LazyExec(s, open, close) == Some(p) && IndexFrom(s, close, p + |open|) == Some(q)
    requires t == s[..p + |open|] + rep + s[q..]
    ensures LazyGroup(t, open, close) == Some(rep)
  {
    var j := p + |open|;
    RematchAt(s, t, open, close, p, q, rep);
    assert t[..j] == s[..j];
    forall p': nat | p' < p ensures !LazyMatchesAt(t, open, close, p') {
      EarlierStillFails(s, t, open, close, p, q, p');
    }
    assert LazyExec(t, open, close) == Some(p);
  }

  /** After the substitution the field found at `p` matches again, capturing `rep`. */
  lemma RematchAt(s: string, t: string, open: string, close: string, p: nat, q: nat, rep: string)
    requires 0 < |close|
    requires NoLineTerminator(rep) && forall k :: 0 <= k < |rep| ==> rep[k] != close[0]
    requires LazyMatchesAt(s, open, close, p) && IndexFrom(s, close, p + |open|) == Some(q)
    requires t == s[..p + |open|] + rep + s[q..]
    ensures LazyMatchesAt(t, open, close, p) && GroupAt(t, open, close, p) == rep
  {
    var j := p + |open|;
    SpliceParts(s, t, j, q, rep);
    SharedPrefixOccurs(s, t, j, open);
    SuffixOccurs(s, t, q, j + |rep|, close, q);
    ReplacementHoldsNoClose(t, close, j, rep);
    assert IndexFrom(t, close, j) == Some(j + |rep|);
  }

  /** The three pieces of `s[..j] + rep + s[q..]`. */
  lemma SpliceParts(s: string, t: string, j: nat, q: nat, rep: string)
    requires j <= q <= |s| && t == s[..j] + rep + s[q..]
    ensures |t| == j + |rep| + (|s| - q)
    ensures t[..j] == s[..j] && t[j..j + |rep|] == rep && t[j + |rep|..] == s[q..]
  {
  }

  /** An occurrence in a suffix that `t` shares with `s` is one in `t`, shifted. */
  lemma SuffixOccurs(s: string, t: string, e: nat, off: nat, pat: string, c: nat)
    requires e <= c && e <= |s| && off <= |t| && t[off..] == s[e..]
    requires OccursAt(s, pat, c)
    ensures OccursAt(t, pat, c - e + off)
  {
    var c' := c - e + off;
    assert t[c'..c' + |pat|] == t[off..][c - e..c - e + |pat|];
    assert s[c..c + |pat|] == s[e..][c - e..c - e + |pat|];
  }

  /** No `close` starts inside a replacement none of whose characters can start it. */
  lemma ReplacementHoldsNoClose(t: string, close: string, j: nat, rep: string)
    requires 0 < |close| && forall k :: 0 <= k < |rep| ==> rep[k] != close[0]
    requires j + |rep| <= |t| && t[j..j + |rep|] == rep
    ensures forall x: nat :: j <= x < j + |rep| ==> !OccursAt(t, close, x)
  {
    forall x: nat | j <= x < j + |rep| ensures !OccursAt(t, close, x) {
      assert t[x] == rep[x - j];
      assert x + |close| <= |t| ==> t[x..x + |close|][0] == t[x];
    }
  }

  /**
   * No position before `p` matches after the substitution: the line
   * terminator that stopped it before still lies ahead of the first `close`.
   */
  lemma EarlierStillFails(s: string, t: string, open: string, close: string, p: nat, q: nat, p': nat)
    requires NoLineTerminator(close)
    requires LazyExec(s, open, close) == Some(p)
    requires IndexFrom(s, close, p + |open|) == Some(q)
    requires p + |open| <= |t| && t[..p + |open|] == s[..p + |open|]
    requires p' < p
    ensures !LazyMatchesAt(t, open, close, p')
  {
    var j := p + |open|;
    SharedPrefixOccurs(s, t, j, open);
    if OccursAt(t, open, p') {
      var a := p' + |open|;
      var y := StoppingTerminator(s, open, close, p, q, p');
      ClosesBeforeTerminator(s, t, close, a, y, j);
      TerminatorStops(t, close, a, y);
    }
  }

  /**
   * With a shared prefix up to `j`, a `close` that cannot be found in `s`
   * between `a` and the terminator at `y < j` cannot be found in `t` either:
   * it would have to end in the shared prefix or cover the terminator.
   */
  lemma ClosesBeforeTerminator(s: string, t: string, close: string, a: nat, y: nat, j: nat)
    requires NoLineTerminator(close)
    requires a <= y < j <= |s| && j <= |t| && t[..j] == s[..j] && IsLineTerminator(s[y])
    requires forall x: nat :: a <= x <= y ==> !OccursAt(s, close, x)
    ensures IsLineTerminator(t[y])
    ensures forall x: nat :: a <= x <= y ==> !OccursAt(t, close, x)
  {
    assert t[y] == t[..j][y] == s[..j][y] == s[y];
    SharedPrefixOccurs(s, t, j, close);
    forall x: nat | a <= x <= y && y < x + |close| ensures !OccursAt(t, close, x) {
      TerminatorNotInClose(t, close, x, y);
    }
  }

  /** A `close` occurrence cannot cover a line terminator. */
  lemma TerminatorNotInClose(t: string, close: string, x: nat, y: nat)
    requires NoLineTerminator(close)
    requires x <= y < x + |close| && y < |t| && IsLineTerminator(t[y])
    ensures !OccursAt(t, close, x)
  {
    if x + |close| <= |t| {
      assert t[x..x + |close|][y - x] == t[y];
    }
  }

  /** A terminator met before any `close` stops the lazy group. */
  lemma TerminatorStops(t: string, close: string, a: nat, y: nat)
    requires a <= y < |t| && IsLineTerminator(t[y])
    requires forall x: nat :: a <= x <= y ==> !OccursAt(t, close, x)
    ensures var q := IndexFrom(t, close, a); q.None? || !NoLineTerminator(t[a..q.value])
  {
    var q := IndexFrom(t, close, a);
    if q.Some? {
      assert y < q.value;
      assert t[a..q.value][y - a] == t[y];
    }
  }

  /** Why an earlier `open` at `p'` fails to match: a terminator before any `close`. */
  lemma StoppingTerminator(s: string, open: string, close: string, p: nat, q: nat, p': nat) returns (y: nat)
    requires LazyExec(s, open, close) == Some(p)
    requires IndexFrom(s, close, p + |open|) == Some(q)
    requires OccursAt(s, open, p') && p' < p
    ensures p' + |open| <= y < p + |open| && IsLineTerminator(s[y])
    ensures forall x: nat :: p' + |open| <= x <= y ==> !OccursAt(s, close, x)
  {
    var a := p' + |open|;
    assert !LazyMatchesAt(s, open, close, p');
    var q' := IndexFrom(s, close, a).value;
    y := TerminatorWitness(s, a, q');
    TerminatorFree(s, p + |open|, q);
  }

  /** A slice that is not terminator-free holds a terminator somewhere. */
  lemma TerminatorWitness(x: string, a: nat, b: nat) returns (y: nat)
    requires a <= b <= |x| && !NoLineTerminator(x[a..b])
    ensures a <= y < b && IsLineTerminator(x[y])
  {
    var k :| 0 <= k < b - a && IsLineTerminator(x[a..b][k]);
    y := a + k;
    assert x[a..b][k] == x[y];
  }

  /** The closing literals start with '%' and hold no line terminator. */
  lemma LiteralFacts()
    ensures DateClose[0] == '%' && NoLineTerminator(DateClose)
    ensures TtlClose[0] == '%' && NoLineTerminator(TtlClose)
  {
  }

  /** Replacement text made of digits and dashes re-matches behind either closing literal. */
  lemma PlainTextVerifies(s: string, open: string, close: string, rep: string)
    requires close == DateClose || close == TtlClose
    requires DigitsAndDashes(rep)
    requires CapturedAtField(s, open, close)
    ensures LazySubstitute(s, open, close, rep).outcome == Updated
  {
    LiteralFacts();
    assert forall k :: 0 <= k < |rep| ==> rep[k] != close[0] && !IsLineTerminator(rep[k]);
    assert SafeReplacement(close, rep);
    LazySubstituteVerifies(s, open, close, rep);
  }

  /**
   * The date substitution verifies when the captured date first occurs at
   * the date field itself: the date text holds only digits and dashes.
   */
  lemma DateVerifies(s: string, today: LocalDate)
    requires CapturedAtField(s, DateOpen, DateClose)
    ensures LazySubstitute(s, DateOpen, DateClose, FormatDate(today)).outcome == Updated
  {
    PlainTextVerifies(s, DateOpen, DateClose, FormatDate(today));
  }

  /**
   * The step substitution verifies when the captured total first occurs at
   * the `ttl` field itself: the step text holds only digits.
   */
  lemma StepTotalVerifies(s: string, steps: nat)
    requires CapturedAtField(s, TtlOpen, TtlClose)
    ensures LazySubstitute(s, TtlOpen, TtlClose, DecimalString(steps)).outcome == Updated
  {
    NumberCharacters(steps);
    PlainTextVerifies(s, TtlOpen, TtlClose, DecimalString(steps));
  }

  // ------------------------------------------------- distance vs calories

  /**
   * A calorie match and a distance match never share a character: the two
   * keys overlap nowhere, and a key cannot start inside a digit run.
   */
  lemma KeysApart(s: string, p: nat, c: nat)
    requires KeyDigitsAt(s, DisKey, p) && KeyDigitsAt(s, CalKey, c)
    ensures c + |CalKey| < p || DigitRunEnd(s, p + |DisKey|) <= c
  {
    KeyHeads();
    KeyChars(s, DisKey, p);
    KeyChars(s, CalKey, c);
    var k := Mismatch(c - p);
    var k' := Mismatch(p - c);
  }

  /** The characters of an occurrence, one by one. */
  lemma KeyChars(s: string, key: string, p: nat)
    requires OccursAt(s, key, p)
    ensures forall k :: 0 <= k < |key| ==> s[p + k] == key[k]
  {
    forall k | 0 <= k < |key| ensures s[p + k] == key[k] {
      assert s[p..p + |key|][k] == s[p + k];
    }
  }

  lemma KeyHeads()
    ensures |DisKey| == |CalKey| == 18 && DisKey[0] == CalKey[0] == '%'
  {
  }

  /**
   * For the key shifted by `d` against the other, a position where they
   * differ, in either direction of the shift. Both keys are `%5C%22`, the
   * three-letter name at positions 6-8, then `%5C%22%3A`, so a '%' stands at
   * positions 0, 3, 9, 12 and 15 and nowhere else. For any other shift the
   * first characters already differ (a non-'%' against '%'), giving 0. At
   * shift 0 the names differ at 6 ('d' against 'c'); at shift 9 the `%3A`
   * tail meets the name, differing at 6 ('%' against a letter); at shifts
   * 3, 12 and 15 a '%' meets the leading '%' and the next characters
   * ('2', '2', '3' against '5') differ, giving 1.
   */
  function Mismatch(d: int): (k: nat)
    ensures 0 <= d < 18 ==> d + k < 18 && DisKey[d + k] != CalKey[k]
    ensures 1 <= d < 18 ==> CalKey[d + k] != DisKey[k]
  {
    if 0 <= d < 18 then [6, 0, 0, 1, 0, 0, 0, 0, 0, 6, 0, 0, 1, 0, 0, 1, 0, 0][d] else 0
  }

  /** Rewriting the distance never removes the calorie field the next step looks for. */
  lemma DistanceKeepsCalories(s: string, rep: string)
    requires KeyExec(s, CalKey).Some?
    ensures KeyExec(KeySubstitute(s, DisKey, rep).text, CalKey).Some?
  {
    if KeyExec(s, DisKey).Some? {
      var p := KeyExec(s, DisKey).value;
      var e := DigitRunEnd(s, p + |DisKey|);
      var c := KeyExec(s, CalKey).value;
      var x := ReplaceFirst(DisKey + s[p + |DisKey|..e], s[p + |DisKey|..e], rep);
      var t := KeySubstitute(s, DisKey, rep).text;
      assert t == s[..p] + x + s[e..];
      KeysApart(s, p, c);
      var c' := SpliceKeepsKeyDigits(s, t, p, e, x, CalKey, c);
      KeyFound(t, CalKey, c');
    }
  }

  /** A key match anywhere means the expression matches. */
  lemma KeyFound(s: string, key: string, c: nat)
    requires KeyDigitsAt(s, key, c)
    ensures KeyExec(s, key).Some?
  {
  }

  /**
   * A key match lying wholly before or wholly after the spliced-out piece
   * `s[p..e]` is still a match in the spliced text, shifted when after it.
   */
  lemma SpliceKeepsKeyDigits(s: string, t: string, p: nat, e: nat, x: string, key: string, c: nat)
    returns (c': nat)
    requires p <= e <= |s| && t == s[..p] + x + s[e..]
    requires KeyDigitsAt(s, key, c) && (c + |key| < p || e <= c)
    ensures KeyDigitsAt(t, key, c')
  {
    if c + |key| < p {
      c' := c;
      assert t[..p] == s[..p];
      assert t[c..c + |key|] == s[..p][c..c + |key|];
      assert s[c..c + |key|] == s[..p][c..c + |key|];
      assert t[c + |key|] == s[c + |key|];
    } else {
      c' := c - e + p + |x|;
      assert t[p + |x|..] == s[e..];
      SuffixKeyDigits(s, t, e, p + |x|, key, c);
    }
  }

  /** A key match in a suffix the rewrite kept is still one, shifted. */
  lemma SuffixKeyDigits(s: string, t: string, e: nat, off: nat, key: string, c: nat)
    requires e <= c && e <= |s| && off <= |t| && t[off..] == s[e..]
    requires KeyDigitsAt(s, key, c)
    ensures KeyDigitsAt(t, key, c - e + off)
  {
    var c' := c - e + off;
    assert t[c'..c' + |key|] == t[off..][c - e..c - e + |key|];
    assert s[c..c + |key|] == s[e..][c - e..c - e + |key|];
    assert t[c' + |key|] == t[off..][c - e + |key|];
    assert s[c + |key|] == s[e..][c - e + |key|];
  }

  /**
   * The distance rewrite of `%5C%22dis%5C%22%3A5` with 3650 metres gives
   * `%3650C%22dis%5C%22%3A5`: the digit text "5" is first found in the key's
   * own `%5C`, so the key is damaged and the old value stays.
   */
  lemma DistanceRewriteHitsKey()
    ensures KeySubstitute(DisKey + "5", DisKey, "3650").text == DisKey[..1] + "3650" + DisKey[2..] + "5"
  {
    KeyDigits(DisKey);
    assert !IsDigit(DisKey[0]);
    RewriteHitsSecond(DisKey, "3650");
  }

  /**
   * A key whose second character is '5', and whose first is not, followed by
   * the value "5": the rewrite replaces the key's '5' and keeps the value.
   */
  lemma RewriteHitsSecond(key: string, rep: string)
    requires 2 <= |key| && key[0] != '5' && key[1] == '5'
    ensures KeySubstitute(key + "5", key, rep).text == key[..1] + rep + key[2..] + "5"
  {
    KeyThenDigitRewrite(key, '5', rep);
    ReplaceSecond(key + "5", rep);
    SpliceSecond(key, rep, "5");
  }

  lemma SpliceSecond(key: string, rep: string, tail: string)
    requires 2 <= |key|
    ensures var s := key + tail; s[..1] + rep + s[2..] == key[..1] + rep + key[2..] + tail
  {
    var s := key + tail;
    assert s[..1] == key[..1] && s[2..] == key[2..] + tail;
    assert key[..1] + rep + (key[2..] + tail) == key[..1] + rep + key[2..] + tail;
  }

  /** The first "5" of a text whose second character is the first '5' in it. */
  lemma ReplaceSecond(s: string, rep: string)
    requires 2 <= |s| && s[0] != '5' && s[1] == '5'
    ensures ReplaceFirst(s, "5", rep) == s[..1] + rep + s[2..]
  {
    assert FirstOccurrence(s, "5", 1) by {
      assert s[1..2] == [s[1]] && s[0..1] == [s[0]];
    }
  }

  /** When the text is just a key and one digit, the match is all of it. */
  lemma KeyThenDigitRewrite(key: string, d: char, rep: string)
    requires IsDigit(d)
    ensures KeySubstitute(key + [d], key, rep).text == ReplaceFirst(key + [d], [d], rep)
  {
    var s := key + [d];
    KeyThenDigit(key, d);
    assert KeyExec(s, key) == Some(0);
    assert s[0..|s|] == s && s[..0] == [] && s[|s|..] == [];
  }

  /** In `key + [d]` for a digit `d`, the key matches at 0 and the digit run is `[d]`. */
  lemma KeyThenDigit(key: string, d: char)
    requires IsDigit(d)
    ensures KeyDigitsAt(key + [d], key, 0)
    ensures DigitRunEnd(key + [d], |key|) == |key| + 1 && (key + [d])[|key|..|key| + 1] == [d]
  {
    assert (key + [d])[0..|key|] == key;
  }
}

=== FILE: processor.dfy ===
/**
 * `processData` and `processExistingTemplate`: argument validation, the
 * choice between the explicit template and `DATA_JSON`, and the structured
 * rewrite with the pattern rewrite as its fallback.
 */
module DataProcessor {
  import opened Wrappers
  import opened Text
  import opened Json
  import opened Measurement
  import opened StructuredRewrite
  import opened PatternRewrite

  /** The `step` argument: not a number at all, `NaN`, or an integral number. */
  datatype StepArg = NotANumber | NaN | Number(value: int)

  /**
   * The `jsonTemplate` argument: a string, or any other value, of which only
   * its truthiness matters (`undefined` is `NonString(false)`).
   */
  datatype TemplateArg = TemplateText(text: string) | NonString(truthy: bool)

  /** The three distinct exits of lines 15-34, and the step check. */
  datatype Error =
    | InvalidStep       // not a number, NaN, or not above zero
    | EmptyEnvTemplate  // DATA_JSON is set but blank
    | InvalidTemplate   // a truthy template that is not a string or is blank
    | MissingTemplate   // neither source is there

  /** Line 15: `typeof step === 'number' && !isNaN(step) && step > 0`. */
  predicate ValidStep(step: StepArg)
  {
    step.Number? && step.value > 0
  }

  /** JavaScript truthiness of the template argument. */
  predicate Truthy(template: TemplateArg)
  {
    match template
    case TemplateText(s) => s != ""
    case NonString(b) => b
  }

  /** `process.env.DATA_JSON` is truthy: present and not the empty string. */
  predicate EnvSet(env: Option<string>)
  {
    env.Some? && env.value != ""
  }

  /**
   * Lines 42-143 with the clock read supplied as `today`: the structured
   * rewrite when it goes through, otherwise the pattern rewrite applied to
   * the template exactly as it was passed in.
   */
  function ProcessExistingTemplate(steps: nat, template: string, today: LocalDate, c: Codecs): (r: string)
    ensures var m := Measure(steps, today);
      Rewrite(template, m, c).Failure? ==> r == Fallback(template, m).text
    ensures var m := Measure(steps, today);
      ParseTemplate(template, c).Success? && StampArray(ParseTemplate(template, c).value, m, c).Success?
      && c.encodeUri(c.stringify(Arr(StampArray(ParseTemplate(template, c).value, m, c).value))).Some? ==>
        c.encodeUri(c.stringify(Arr(StampArray(ParseTemplate(template, c).value, m, c).value))) == Some(r)
  {
    var m := Measure(steps, today);
    match Rewrite(template, m, c)
    case Success(out) => out
    case Failure(_) => Fallback(template, m).text
  }

  /**
   * Lines 13-35. The step is checked before either template source is
   * looked at; a truthy explicit template wins over `DATA_JSON`, and only
   * the latter is trimmed before use.
   */
  function ProcessData(step: StepArg, template: TemplateArg, env: Option<string>, today: LocalDate, c: Codecs)
    : (r: Result<string, Error>)
    ensures !ValidStep(step) ==> r == Failure(InvalidStep)
    ensures ValidStep(step) && Truthy(template) ==>
      r == if template.NonString? || AllWhitespace(template.text) then Failure(InvalidTemplate)
           else Success(ProcessExistingTemplate(step.value, template.text, today, c))
    ensures ValidStep(step) && !Truthy(template) && EnvSet(env) ==>
      r == if AllWhitespace(env.value) then Failure(EmptyEnvTemplate)
           else Success(ProcessExistingTemplate(step.value, Trim(env.value), today, c))
    ensures ValidStep(step) && !Truthy(template) && !EnvSet(env) ==> r == Failure(MissingTemplate)
  {
    if !step.Number? || step.value <= 0 then Failure(InvalidStep)
    else if !Truthy(template) && env.Some? && env.value != "" then
      var envTemplate := Trim(env.value);
      if envTemplate == "" then Failure(EmptyEnvTemplate)
      else Success(ProcessExistingTemplate(step.value, envTemplate, today, c))
    else if Truthy(template) then
      if !template.TemplateText? || Trim(template.text) == "" then Failure(InvalidTemplate)
      else Success(ProcessExistingTemplate(step.value, template.text, today, c))
    else Failure(MissingTemplate)
  }

  // ------------------------------------------------------ source precedence

  /** With a truthy explicit template, the value of `DATA_JSON` makes no difference. */
  lemma ExplicitTemplateIgnoresEnv(step: StepArg, template: TemplateArg, env: Option<string>, env': Option<string>,
                                   today: LocalDate, c: Codecs)
    requires Truthy(template)
    ensures ProcessData(step, template, env, today, c) == ProcessData(step, template, env', today, c)
  {
  }

  /**
   * `DATA_JSON` is consulted only for a valid step with a falsy template and
   * a non-empty value: otherwise the result is the one without it.
   */
  lemma EnvConsultedOnlyWhenNeeded(step: StepArg, template: TemplateArg, env: Option<string>,
                                   today: LocalDate, c: Codecs)
    requires !(ValidStep(step) && !Truthy(template) && EnvSet(env))
    ensures ProcessData(step, template, env, today, c) == ProcessData(step, template, None, today, c)
  {
  }

  /** Every text that reaches the rewrite is one that is not blank. */
  lemma RewrittenSourceNotBlank(step: StepArg, template: TemplateArg, env: Option<string>,
                                today: LocalDate, c: Codecs)
    requires ProcessData(step, template, env, today, c).Success?
    ensures ValidStep(step)
    ensures Truthy(template) ==> template.TemplateText? && !AllWhitespace(template.text)
    ensures !Truthy(template) ==> EnvSet(env) && !AllWhitespace(env.value)
  {
  }

  // ------------------------------------------------------------ the fallback

  /**
   * However the structured attempt fails, the result is the same: the
   * fallback starts from the original template and nothing the failed
   * attempt computed reaches it.
   */
  lemma FallbackIgnoresFailedAttempt(steps: nat, template: string, today: LocalDate, c: Codecs, c': Codecs)
    requires Rewrite(template, Measure(steps, today), c).Failure?
    requires Rewrite(template, Measure(steps, today), c').Failure?
    ensures ProcessExistingTemplate(steps, template, today, c) == ProcessExistingTemplate(steps, template, today, c')
  {
  }

  /**
   * A template the structured rewrite rejects and that holds none of the
   * four fields is returned as it was passed in.
   */
  lemma UnrecognisedTemplateUnchanged(steps: nat, template: string, today: LocalDate, c: Codecs)
    requires Rewrite(template, Measure(steps, today), c).Failure?
    requires !Captures(template, DateOpen, DateClose) && !Captures(template, TtlOpen, TtlClose)
    requires KeyExec(template, DisKey).None? && KeyExec(template, CalKey).None?
    ensures ProcessExistingTemplate(steps, template, today, c) == template
  {
  }

  /**
   * When the structured rewrite goes through, the output is the encoding of
   * the stamped array, and a first element that is an object carries the new
   * date and a summary written back as a string.
   */
  lemma StructuredOutput(steps: nat, template: string, today: LocalDate, c: Codecs)
    requires Rewrite(template, Measure(steps, today), c).Success?
    ensures var m := Measure(steps, today);
      var elems := ParseTemplate(template, c).value;
      var out := StampArray(elems, m, c).value;
      && c.encodeUri(c.stringify(Arr(out))) == Some(ProcessExistingTemplate(steps, template, today, c))
      && (|elems| > 0 && elems[0].Obj? ==>
            && Lookup(out[0].fields, "date") == Some(Str(FormatDate(today)))
            && Lookup(out[0].fields, "summary").Some? && Lookup(out[0].fields, "summary").value.Str?)
  {
  }
}

=== FILE: structured.dfy ===
/**
 * The structured rewrite of `processExistingTemplate`: decode the template,
 * parse it as an array, stamp the date and the step fields into the first
 * element, serialise and encode again. Every exception the runtime would
 * throw on the way (strict mode) is a `Failure`, which sends the caller to
 * the pattern rewrite.
 */
module StructuredRewrite {
  import opened Wrappers
  import opened Text
  import opened Json
  import opened Measurement

  /**
   * Why the structured attempt threw. `NotAnArray` is not a throw of the
   * source: a bracketed text never parses to anything but an array
   * (`ParsedTemplateIsArray`), so the case only closes off codecs that break
   * that law. `EncodeFailed` cannot happen with a runtime whose
   * `JSON.stringify` escapes lone surrogates, as every runtime since
   * ECMAScript 2019 does; it is kept because the codec is partial.
   */
  datatype Fault =
    | DecodeFailed        // decodeURIComponent rejected the template
    | ParseFailed         // JSON.parse rejected the (bracketed) text
    | NotAnArray          // the parsed value is not an array (ruled out by the codec laws)
    | ItemNotObject       // `item.date = ...` on a primitive
    | SummaryParseFailed  // JSON.parse rejected a string summary
    | SummaryNotObject    // `summaryObj.stp` read or assigned on null or a primitive
    | StpNotObject        // `summaryObj.stp.ttl = ...` on a primitive
    | EncodeFailed        // encodeURIComponent rejected the serialised text

  /** `v ?? {}` on a property read (`None` is `undefined`). */
  function OrEmpty(v: Option<Value>): Value
  {
    if v.None? || v.value == Null then Obj([]) else v.value
  }

  /**
   * A value on which a property can be assigned: an object or an array.
   * Assigning a property on `null` or a primitive throws in strict mode;
   * a named property assigned on an array is dropped by `JSON.stringify`.
   */
  predicate Assignable(v: Value)
  {
    v.Obj? || v.Arr?
  }

  /** The object fields `fs` hold the new step, distance and calorie values. */
  predicate HasStepFields(fs: seq<Field>, m: StepMeasurement)
  {
    && Lookup(fs, "ttl") == Some(Num(m.steps))
    && Lookup(fs, "dis") == Some(Num(m.distance))
    && Lookup(fs, "cal") == Some(Num(m.calories))
  }

  /** Every property of `fs` outside `changed` has the same value in `fs'`. */
  ghost predicate SameExcept(fs: seq<Field>, fs': seq<Field>, changed: set<string>)
  {
    forall k :: k !in changed ==> Lookup(fs', k) == Lookup(fs, k)
  }

  /** Lines 65-67: `stp.ttl = step; stp.dis = dis; stp.cal = cal`. */
  function StampStp(stp: Value, m: StepMeasurement): (r: Result<Value, Fault>)
    ensures r.Failure? <==> !Assignable(stp)
    ensures r.Failure? ==> r.error == StpNotObject
    ensures stp.Arr? ==> r == Success(stp)
    ensures stp.Obj? ==>
      && r.Success? && r.value.Obj? && HasStepFields(r.value.fields, m)
      && SameExcept(stp.fields, r.value.fields, {"ttl", "dis", "cal"})
  {
    match stp
    case Obj(fs) =>
      Success(Obj(Put(Put(Put(fs, "ttl", Num(m.steps)), "dis", Num(m.distance)), "cal", Num(m.calories))))
    case Arr(_) => Success(stp)
    case _ => Failure(StpNotObject)
  }

  /**
   * Lines 62-63: a string summary is parsed, any other value is used as it
   * is, and a missing or null one becomes `{}`.
   */
  function ResolveSummary(summary: Option<Value>, c: Codecs): (r: Result<Value, Fault>)
    ensures (summary.Some? && summary.value.Str?) ==>
      r == (match c.parse(summary.value.s) case None => Failure(SummaryParseFailed) case Some(v) => Success(v))
    ensures !(summary.Some? && summary.value.Str?) ==> r.Success? && r.value != Null
    ensures (summary.None? || summary == Some(Null)) ==> r == Success(Obj([]))
    ensures summary.Some? && !summary.value.Str? && summary.value != Null ==> r == Success(summary.value)
  {
    match summary
    case Some(Str(text)) =>
      (match c.parse(text)
       case None => Failure(SummaryParseFailed)
       case Some(v) => Success(v))
    case _ => Success(OrEmpty(summary))
  }

  /** The summary object carries a stamped `stp` (an array summary or `stp` takes none visibly). */
  predicate StampedSummary(so: Value, m: StepMeasurement)
  {
    || so.Arr?
    || (so.Obj? && Lookup(so.fields, "stp").Some?
        && var stp := Lookup(so.fields, "stp").value;
           stp.Arr? || (stp.Obj? && HasStepFields(stp.fields, m)))
  }

  /** Lines 64-67 on the resolved summary object. */
  function StampSummary(so: Value, m: StepMeasurement): (r: Result<Value, Fault>)
    ensures r.Failure? <==> !Assignable(so) || (so.Obj? && !Assignable(OrEmpty(Lookup(so.fields, "stp"))))
    ensures so.Arr? ==> r == Success(so)
    ensures r.Success? ==> StampedSummary(r.value, m)
    ensures so.Obj? && r.Success? ==>
      && r.value.Obj?
      && SameExcept(so.fields, r.value.fields, {"stp"})
      && var stp := OrEmpty(Lookup(so.fields, "stp"));
         var stp' := Lookup(r.value.fields, "stp").value;
         (stp.Arr? ==> stp' == stp)
         && (stp.Obj? ==> stp'.Obj? && SameExcept(stp.fields, stp'.fields, {"ttl", "dis", "cal"}))
  {
    match so
    case Obj(fs) =>
      var stp :- StampStp(OrEmpty(Lookup(fs, "stp")), m);
      Success(Obj(Put(fs, "stp", stp)))
    case Arr(_) => Success(so)
    case _ => Failure(SummaryNotObject)
  }

  /** Whether stamping the object fields `fs` of the first element throws. */
  predicate ItemThrows(fs: seq<Field>, c: Codecs)
  {
    var summary := Lookup(fs, "summary");
    if summary.Some? && summary.value.Str? then
      c.parse(summary.value.s).None?
      || !Assignable(c.parse(summary.value.s).value)
      || (c.parse(summary.value.s).value.Obj?
          && !Assignable(OrEmpty(Lookup(c.parse(summary.value.s).value.fields, "stp"))))
    else
      var so := OrEmpty(summary);
      !Assignable(so) || (so.Obj? && !Assignable(OrEmpty(Lookup(so.fields, "stp"))))
  }

  /**
   * Lines 60-69 on the first array element: set `date`, resolve and stamp
   * the summary, and write the summary back as a string, whatever it was.
   */
  function StampItem(item: Value, m: StepMeasurement, c: Codecs): (r: Result<Value, Fault>)
    ensures !Assignable(item) ==> r == Failure(ItemNotObject)
    ensures item.Arr? ==> r == Success(item)
    ensures item.Obj? ==> (r.Failure? <==> ItemThrows(item.fields, c))
    ensures item.Obj? && r.Success? ==>
      && r.value.Obj?
      && Lookup(r.value.fields, "date") == Some(Str(m.date))
      && Lookup(r.value.fields, "summary").Some? && Lookup(r.value.fields, "summary").value.Str?
      && SameExcept(item.fields, r.value.fields, {"date", "summary"})
  {
    match item
    case Obj(fs) =>
      var dated := Put(fs, "date", Str(m.date));
      assert Lookup(dated, "summary") == Lookup(fs, "summary");
      var so :- ResolveSummary(Lookup(dated, "summary"), c);
      var so' :- StampSummary(so, m);
      Success(Obj(Put(dated, "summary", Str(c.stringify(so')))))
    case Arr(_) => Success(item)
    case _ => Failure(ItemNotObject)
  }

  /**
   * Lines 58-69 on the parsed array. When the array is empty or starts with
   * `null`, `arr[0] ?? {}` is a fresh object that is not in the array: its
   * update happens but is lost, and the array is serialised unchanged.
   */
  function StampArray(elems: seq<Value>, m: StepMeasurement, c: Codecs): (r: Result<seq<Value>, Fault>)
    ensures (|elems| == 0 || elems[0] == Null) ==> r == Success(elems)
    ensures r.Success? ==> |r.value| == |elems| && (|elems| > 0 ==> r.value[1..] == elems[1..])
    ensures |elems| > 0 && elems[0] != Null ==>
      (r.Failure? <==> StampItem(elems[0], m, c).Failure?)
      && (r.Success? ==> r.value[0] == StampItem(elems[0], m, c).value)
  {
    if |elems| == 0 || elems[0] == Null then Success(elems)
    else
      var item :- StampItem(elems[0], m, c);
      Success([item] + elems[1..])
  }

  /** The fresh `{}` whose update is dropped never throws, so nothing is hidden by dropping it. */
  lemma DetachedItemUpdates(m: StepMeasurement, c: Codecs)
    ensures StampItem(Obj([]), m, c).Success?
  {
  }

  /** `decoded.startsWith('[') ? decoded : `[${decoded}]`` */
  function Bracketed(decoded: string): (t: string)
    ensures 0 < |t| && t[0] == '['
    ensures t == decoded || t == "[" + decoded + "]"
    ensures t == decoded <==> 0 < |decoded| && decoded[0] == '['
  {
    if 0 < |decoded| && decoded[0] == '[' then decoded else "[" + decoded + "]"
  }

  /** Lines 55-57: decode, bracket and parse the template into the array of records. */
  function ParseTemplate(template: string, c: Codecs): (r: Result<seq<Value>, Fault>)
    ensures r == Failure(DecodeFailed) <==> c.decodeUri(template).None?
    ensures r == Failure(ParseFailed) <==>
      c.decodeUri(template).Some? && c.parse(Bracketed(c.decodeUri(template).value)).None?
    ensures r.Failure? ==> r.error in {DecodeFailed, ParseFailed, NotAnArray}
    ensures r.Success? <==>
      c.decodeUri(template).Some? && c.parse(Bracketed(c.decodeUri(template).value)).Some?
      && c.parse(Bracketed(c.decodeUri(template).value)).value.Arr?
    ensures r.Success? ==> c.parse(Bracketed(c.decodeUri(template).value)) == Some(Arr(r.value))
  {
    match c.decodeUri(template)
    case None => Failure(DecodeFailed)
    case Some(decoded) =>
      match c.parse(Bracketed(decoded))
      case None => Failure(ParseFailed)
      case Some(Arr(elems)) => Success(elems)
      case Some(_) => Failure(NotAnArray)
  }

  /** Lines 55-71: the whole structured attempt, or the reason it threw. */
  function Rewrite(template: string, m: StepMeasurement, c: Codecs): (r: Result<string, Fault>)
    ensures ParseTemplate(template, c).Failure? ==> r == Failure(ParseTemplate(template, c).error)
    ensures ParseTemplate(template, c).Success? && StampArray(ParseTemplate(template, c).value, m, c).Failure? ==>
      r == Failure(StampArray(ParseTemplate(template, c).value, m, c).error)
    ensures r.Failure? <==>
      || ParseTemplate(template, c).Failure?
      || StampArray(ParseTemplate(template, c).value, m, c).Failure?
      || c.encodeUri(c.stringify(Arr(StampArray(ParseTemplate(template, c).value, m, c).value))).None?
    ensures r.Success? ==>
      c.encodeUri(c.stringify(Arr(StampArray(ParseTemplate(template, c).value, m, c).value))) == Some(r.value)
  {
    var elems :- ParseTemplate(template, c);
    var elems' :- StampArray(elems, m, c);
    match c.encodeUri(c.stringify(Arr(elems')))
    case None => Failure(EncodeFailed)
    case Some(out) => Success(out)
  }

  /**
   * Because the text is always bracketed, a real `JSON.parse` never yields a
   * non-array here, and the array it yields is well-formed.
   */
  lemma ParsedTemplateIsArray(template: string, c: Codecs)
    requires Lawful(c)
    ensures ParseTemplate(template, c) != Failure(NotAnArray)
    ensures ParseTemplate(template, c).Success? ==> WellFormed(Arr(ParseTemplate(template, c).value))
  {
    var d := c.decodeUri(template);
    if d.Some? {
      var text := Bracketed(d.value);
      var p := c.parse(text);
      if p.Some? {
        assert p.value.Arr?;
        assert WellFormed(p.value);
      }
    }
  }

  // ------------------------------------------------- well-formedness kept

  /** The three numbers written are ones a JavaScript number holds exactly. */
  predicate SafeMeasurement(m: StepMeasurement)
  {
    m.steps <= MaxSafeInteger && m.distance <= MaxSafeInteger && m.calories <= MaxSafeInteger
  }

  lemma StampStpWellFormed(stp: Value, m: StepMeasurement)
    requires WellFormed(stp) && SafeMeasurement(m) && StampStp(stp, m).Success?
    ensures WellFormed(StampStp(stp, m).value)
  {
    if stp.Obj? {
      DoubleBoundaries();
      var fs1 := Put(stp.fields, "ttl", Num(m.steps));
      PutWellFormed(stp.fields, "ttl", Num(m.steps));
      var fs2 := Put(fs1, "dis", Num(m.distance));
      PutWellFormed(fs1, "dis", Num(m.distance));
      PutWellFormed(fs2, "cal", Num(m.calories));
    }
  }

  lemma StampSummaryWellFormed(so: Value, m: StepMeasurement)
    requires WellFormed(so) && SafeMeasurement(m) && StampSummary(so, m).Success?
    ensures WellFormed(StampSummary(so, m).value)
  {
    if so.Obj? {
      var found := Lookup(so.fields, "stp");
      if found.Some? {
        LookupWellFormed(so.fields, "stp");
      }
      var stp := OrEmpty(found);
      StampStpWellFormed(stp, m);
      PutWellFormed(so.fields, "stp", StampStp(stp, m).value);
    }
  }

  lemma ResolveSummaryWellFormed(summary: Option<Value>, c: Codecs)
    requires Lawful(c)
    requires summary.Some? ==> WellFormed(summary.value)
    requires ResolveSummary(summary, c).Success?
    ensures WellFormed(ResolveSummary(summary, c).value)
  {
  }

  /**
   * Line 69 under real `JSON.parse`/`JSON.stringify`: the string written
   * back as `summary` parses to the stamped summary object, whose `stp`
   * holds the new step, distance and calorie values.
   */
  lemma SummaryStringCarriesStamp(item: Value, m: StepMeasurement, c: Codecs)
    requires Lawful(c) && WellFormed(item) && SafeMeasurement(m)
    requires item.Obj? && StampItem(item, m, c).Success?
    ensures var summary := Lookup(StampItem(item, m, c).value.fields, "summary").value;
      var so := ResolveSummary(Lookup(item.fields, "summary"), c).value;
      && c.parse(summary.s) == Some(StampSummary(so, m).value)
      && StampedSummary(c.parse(summary.s).value, m)
  {
    var fs := item.fields;
    var found := Lookup(fs, "summary");
    if found.Some? {
      LookupWellFormed(fs, "summary");
    }
    ResolveSummaryWellFormed(found, c);
    var so := ResolveSummary(found, c).value;
    StampSummaryWellFormed(so, m);
    var dated := Put(fs, "date", Str(m.date));
    assert Lookup(dated, "summary") == found;
  }

  // ------------------------------------------------------------ idempotence

  lemma StampStpIdempotent(stp: Value, m: StepMeasurement)
    requires StampStp(stp, m).Success?
    ensures var stp' := StampStp(stp, m).value; StampStp(stp', m) == Success(stp')
  {
    if stp.Obj? {
      var fs' := StampStp(stp, m).value.fields;
      PutUnchanged(fs', "ttl", Num(m.steps));
      PutUnchanged(fs', "dis", Num(m.distance));
      PutUnchanged(fs', "cal", Num(m.calories));
    }
  }

  lemma StampSummaryIdempotent(so: Value, m: StepMeasurement)
    requires StampSummary(so, m).Success?
    ensures var so' := StampSummary(so, m).value; StampSummary(so', m) == Success(so')
  {
    if so.Obj? {
      var stp := OrEmpty(Lookup(so.fields, "stp"));
      var stp' := StampStp(stp, m).value;
      StampStpIdempotent(stp, m);
      var fs' := Put(so.fields, "stp", stp');
      assert OrEmpty(Lookup(fs', "stp")) == stp';
      PutUnchanged(fs', "stp", stp');
    }
  }

  lemma StampItemIdempotent(item: Value, m: StepMeasurement, c: Codecs)
    requires Lawful(c) && WellFormed(item) && SafeMeasurement(m)
    requires StampItem(item, m, c).Success?
    ensures var item' := StampItem(item, m, c).value; StampItem(item', m, c) == Success(item')
  {
    if item.Obj? {
      var fs := item.fields;
      var dated := Put(fs, "date", Str(m.date));
      assert Lookup(dated, "summary") == Lookup(fs, "summary");
      var so := ResolveSummary(Lookup(fs, "summary"), c).value;
      var so' := StampSummary(so, m).value;
      var text := c.stringify(so');
      var fs' := Put(dated, "summary", Str(text));
      SummaryStringCarriesStamp(item, m, c);
      StampSummaryIdempotent(so, m);
      StampedItemFixed(fs', m, c, text, so');
    }
  }

  /**
   * An object that already has the date and a summary string parsing to a
   * summary that stamping leaves alone, and written back as that same string,
   * is left alone by stamping.
   */
  lemma StampedItemFixed(fs: seq<Field>, m: StepMeasurement, c: Codecs, text: string, so: Value)
    requires Lookup(fs, "date") == Some(Str(m.date)) && Lookup(fs, "summary") == Some(Str(text))
    requires c.parse(text) == Some(so) && StampSummary(so, m) == Success(so) && c.stringify(so) == text
    ensures StampItem(Obj(fs), m, c) == Success(Obj(fs))
  {
    PutUnchanged(fs, "date", Str(m.date));
    PutUnchanged(fs, "summary", Str(text));
  }

  /**
   * Applying the tree mutation to its own output, with the same measurement,
   * gives the same tree back.
   */
  lemma StampArrayIdempotent(elems: seq<Value>, m: StepMeasurement, c: Codecs)
    requires Lawful(c) && WellFormed(Arr(elems)) && SafeMeasurement(m)
    requires StampArray(elems, m, c).Success?
    ensures var out := StampArray(elems, m, c).value; StampArray(out, m, c) == Success(out)
  {
    if |elems| > 0 && elems[0] != Null {
      StampItemIdempotent(elems[0], m, c);
      var item' := StampItem(elems[0], m, c).value;
      assert item' != Null;
    }
  }

  // ------------------------------------------------------------ key order

  /**
   * Assignment in place: the keys of the stamped `stp` are its old keys in
   * their order, then those of `ttl`, `dis`, `cal` it lacked, in that order.
   */
  lemma StampStpKeyOrder(stp: Value, m: StepMeasurement)
    requires stp.Obj?
    ensures StampStp(stp, m).Success? && StampStp(stp, m).value.Obj?
    ensures Keys(StampStp(stp, m).value.fields) == WithKey(WithKey(WithKey(Keys(stp.fields), "ttl"), "dis"), "cal")
  {
    var fs1 := Put(stp.fields, "ttl", Num(m.steps));
    var fs2 := Put(fs1, "dis", Num(m.distance));
    PutKeyOrder(stp.fields, "ttl", Num(m.steps));
    PutKeyOrder(fs1, "dis", Num(m.distance));
    PutKeyOrder(fs2, "cal", Num(m.calories));
  }

  /**
   * `stp` keeps its place among the summary's keys (or is appended), and
   * inside it the keys are ordered as `StampStpKeyOrder` says.
   */
  lemma StampSummaryKeyOrder(so: Value, m: StepMeasurement)
    requires so.Obj? && StampSummary(so, m).Success?
    ensures StampSummary(so, m).value.Obj?
    ensures Keys(StampSummary(so, m).value.fields) == WithKey(Keys(so.fields), "stp")
    ensures var stp := OrEmpty(Lookup(so.fields, "stp"));
      var stp' := Lookup(StampSummary(so, m).value.fields, "stp").value;
      stp.Obj? ==> stp'.Obj? && Keys(stp'.fields) == WithKey(WithKey(WithKey(Keys(stp.fields), "ttl"), "dis"), "cal")
  {
    var stp := OrEmpty(Lookup(so.fields, "stp"));
    var stp' := StampStp(stp, m).value;
    PutKeyOrder(so.fields, "stp", stp');
    if stp.Obj? {
      StampStpKeyOrder(stp, m);
    }
  }

  /**
   * The keys of a stamped object item are its old keys in their order, then
   * `date` and `summary` if it lacked them, in that order.
   */
  lemma StampItemKeyOrder(item: Value, m: StepMeasurement, c: Codecs)
    requires item.Obj? && StampItem(item, m, c).Success?
    ensures Keys(StampItem(item, m, c).value.fields) == WithKey(WithKey(Keys(item.fields), "date"), "summary")
  {
    var dated := Put(item.fields, "date", Str(m.date));
    assert Lookup(dated, "summary") == Lookup(item.fields, "summary");
    var so := ResolveSummary(Lookup(dated, "summary"), c).value;
    var so' := StampSummary(so, m).value;
    PutKeyOrder(item.fields, "date", Str(m.date));
    PutKeyOrder(dated, "summary", Str(c.stringify(so')));
  }
}

=== FILE: text.dfy ===
/**
 * String operations of the JavaScript runtime that the data processor relies
 * on, stated over `seq<char>`: literal search (`indexOf`, `includes`), the
 * string-pattern form of `String.prototype.replace`, `trim`, `padStart`, and
 * the decimal rendering of non-negative integers (`String(n)`).
 */
module Text {
  import opened Wrappers

  /** The least index `i` with `from <= i < bound` at which `P` holds. */
  function FirstWhere(P: nat -> bool, from: nat, bound: nat): (r: Option<nat>)
    ensures r.Some? ==> from <= r.value < bound && P(r.value)
    ensures forall i: nat :: from <= i < bound && (r.None? || i < r.value) ==> !P(i)
    decreases bound - from
  {
    if from >= bound then None
    else if P(from) then Some(from)
    else FirstWhere(P, from + 1, bound)
  }

  /** `pat` occurs in `s` starting at index `i`. */
  predicate OccursAt(s: string, pat: string, i: nat)
  {
    i + |pat| <= |s| && s[i..i + |pat|] == pat
  }

  /** `i` is the index of the first occurrence of `pat` in `s`. */
  predicate FirstOccurrence(s: string, pat: string, i: nat)
  {
    OccursAt(s, pat, i) && forall k: nat :: k < i ==> !OccursAt(s, pat, k)
  }

  /** `s.indexOf(pat, from)`, with `None` for -1. */
  function IndexFrom(s: string, pat: string, from: nat): (r: Option<nat>)
    ensures r.Some? ==> from <= r.value && OccursAt(s, pat, r.value)
    ensures forall j: nat :: from <= j && (r.None? || j < r.value) ==> !OccursAt(s, pat, j)
  {
    if |pat| > |s| then None
    else
      var bound := |s| - |pat| + 1;
      var occurs := (i: nat) => OccursAt(s, pat, i);
      var r := FirstWhere(occurs, from, bound);
      assert forall j: nat :: occurs(j) == OccursAt(s, pat, j);
      assert forall j: nat :: j >= bound ==> !OccursAt(s, pat, j);
      r
  }

  /** `s.includes(pat)` */
  predicate Contains(s: string, pat: string)
  {
    IndexFrom(s, pat, 0).Some?
  }

  /**
   * `s.replace(pat, rep)` with a string pattern: only the first occurrence of
   * `pat` is replaced, and `s` is returned unchanged when there is none.
   */
  function ReplaceFirst(s: string, pat: string, rep: string): (r: string)
    ensures forall j: nat :: FirstOccurrence(s, pat, j) ==> r == s[..j] + rep + s[j + |pat|..]
    ensures (forall j: nat :: !OccursAt(s, pat, j)) ==> r == s
  {
    match IndexFrom(s, pat, 0)
    case None => s
    case Some(j) => s[..j] + rep + s[j + |pat|..]
  }

  /** Once an occurrence is known, `s.replace(pat, rep)` splices `rep` in at the first one. */
  lemma ReplaceFound(s: string, pat: string, rep: string)
    requires exists i: nat :: OccursAt(s, pat, i)
    ensures var j := IndexFrom(s, pat, 0);
      j.Some? && ReplaceFirst(s, pat, rep) == s[..j.value] + rep + s[j.value + |pat|..]
  {
  }

  // ---------------------------------------------------------------- digits

  /** `\d` of a regular expression without the `u` flag. */
  predicate IsDigit(c: char)
  {
    '0' <= c <= '9'
  }

  predicate AllDigits(s: string)
  {
    forall i :: 0 <= i < |s| ==> IsDigit(s[i])
  }

  function DigitChar(d: nat): (c: char)
    requires d < 10
    ensures IsDigit(c)
  {
    ('0' as int + d) as char
  }

  function DigitValue(c: char): int
  {
    c as int - '0' as int
  }

  /** The number a string of decimal digits denotes (leading zeros allowed); meaningful on digit strings. */
  function DecimalValue(s: string): int
  {
    if s == [] then 0 else DecimalValue(s[..|s| - 1]) * 10 + DigitValue(s[|s| - 1])
  }

  /** `String(n)` for a non-negative integer below 10^21: shortest decimal digits. */
  function DecimalString(n: nat): string
  {
    if n < 10 then [DigitChar(n)] else DecimalString(n / 10) + [DigitChar(n % 10)]
  }

  /** `String(n)` is a non-empty digit string without a leading zero that denotes `n`. */
  lemma {:induction false} DecimalStringDenotes(n: nat)
    ensures var r := DecimalString(n);
      1 <= |r| && AllDigits(r) && DecimalValue(r) == n && (|r| > 1 ==> r[0] != '0')
  {
    if n >= 10 {
      DecimalStringDenotes(n / 10);
      var r := DecimalString(n);
      assert r[..|r| - 1] == DecimalString(n / 10);
    }
  }

  /** `String(i)` for an integer of magnitude below 10^21. */
  function IntString(i: int): string
  {
    if i < 0 then "-" + DecimalString(-i) else DecimalString(i)
  }

  /**
   * The end of the maximal run of digits starting at `from`: what a greedy
   * `\d+` (or `\d*`) consumes.
   */
  function DigitRunEnd(s: string, from: nat): (e: nat)
    requires from <= |s|
    ensures from <= e <= |s|
    ensures forall k :: from <= k < e ==> IsDigit(s[k])
    ensures e == |s| || !IsDigit(s[e])
    decreases |s| - from
  {
    if from < |s| && IsDigit(s[from]) then DigitRunEnd(s, from + 1) else from
  }

  // ------------------------------------------------------------ padding

  /** `s.padStart(width, fill)` with a one-character fill string. */
  function PadStart(s: string, width: nat, fill: char): (r: string)
    ensures |r| == if |s| >= width then |s| else width
    ensures r[|r| - |s|..] == s
    ensures forall i :: 0 <= i < |r| - |s| ==> r[i] == fill
  {
    if |s| >= width then s
    else
      var pad := seq(width - |s|, _ => fill);
      assert (pad + s)[|pad|..] == s;
      pad + s
  }

  // ----------------------------------------------------------- trimming

  /** WhiteSpace and LineTerminator code points, the set `String.prototype.trim` strips. */
  predicate IsJsWhitespace(c: char)
  {
    || c == '\t' || c == '\n' || c == '\U{B}' || c == '\U{C}' || c == '\r' || c == ' '
    || c == '\U{A0}' || c == '\U{1680}' || ('\U{2000}' <= c <= '\U{200A}')
    || c == '\U{2028}' || c == '\U{2029}' || c == '\U{202F}' || c == '\U{205F}'
    || c == '\U{3000}' || c == '\U{FEFF}'
  }

  predicate AllWhitespace(s: string)
  {
    forall i :: 0 <= i < |s| ==> IsJsWhitespace(s[i])
  }

  /** Number of leading whitespace characters of `s`. */
  function LeadingWhitespace(s: string): (n: nat)
    ensures n <= |s| && AllWhitespace(s[..n])
    ensures n < |s| ==> !IsJsWhitespace(s[n])
  {
    if s == [] || !IsJsWhitespace(s[0]) then 0
    else
      var n := 1 + LeadingWhitespace(s[1..]);
      assert s[..n] == [s[0]] + s[1..][..n - 1];
      n
  }

  /** Number of trailing whitespace characters of `s`. */
  function TrailingWhitespace(s: string): (n: nat)
    ensures n <= |s| && AllWhitespace(s[|s| - n..])
    ensures n < |s| ==> !IsJsWhitespace(s[|s| - n - 1])
  {
    if s == [] || !IsJsWhitespace(s[|s| - 1]) then 0
    else
      var n := 1 + TrailingWhitespace(s[..|s| - 1]);
      assert s[|s| - n..] == s[..|s| - 1][|s| - 1 - (n - 1)..] + [s[|s| - 1]];
      n
  }

  /**
   * `s.trim()`: the longest piece of `s` that neither starts nor ends with
   * whitespace, obtained by removing only whitespace at both ends.
   */
  function Trim(s: string): (r: string)
    ensures r == [] <==> AllWhitespace(s)
    ensures r != [] ==> !IsJsWhitespace(r[0]) && !IsJsWhitespace(r[|r| - 1])
    ensures exists a: nat, b: nat ::
              a <= b <= |s| && r == s[a..b] && AllWhitespace(s[..a]) && AllWhitespace(s[b..])
  {
    var a := LeadingWhitespace(s);
    if a == |s| then
      assert s[..a] == s;
      assert s[a..a] == [];
      []
    else
      var b := |s| - TrailingWhitespace(s[a..]);
      assert s[b..] == s[a..][|s[a..]| - (|s| - b)..];
      assert !AllWhitespace(s) by { assert !IsJsWhitespace(s[a]); }
      s[a..b]
  }
}

=== FILE: wrappers.dfy ===
/** Failure-compatible Option and Result, usable with `:-`. */
module Wrappers {

  datatype Option<+T> = None | Some(value: T) {
    predicate IsFailure() { None? }

    function PropagateFailure<U>(): Option<U>
      requires None?
    {
      None
    }

    function Extract(): T
      requires Some?
    {
      value
    }
  }

  datatype Result<+R, +E> = Success(value: R) | Failure(error: E) {
    predicate IsFailure() { Failure? }

    function PropagateFailure<U>(): Result<U, E>
      requires Failure?
    {
      Failure(error)
    }

    function Extract(): R
      requires Success?
    {
      value
    }
  }
}
